=== FILE: README.md ===
# Megano shop backend: cart, catalog and checkout in Dafny

This project models the rule code of the Megano online shop, a Django REST
backend. The model covers:

- **The session cart** (`Cart` in `shopapp/utils/cart.py`): a dict from the
  `str` of a product id to a count. It supports add-or-increment, remove,
  the count total, the price total and the join with the product table.
- **The basket endpoint** (`CartAPIView`): its 400 and 404 guards and its listing.
- **The catalog list** (`CatalogAPIView`): the category and subcategory
  filter, the title, price and flag filters, the optional sort, and the
  `CatalogPagination` page size and page lookup.
- **The limited-edition list** (`LimitedProductsAPIView`).
- **The admin's `description_short`.**
- **Order pricing** (`Order.calculate_*` in `orderapp/models.py`): prices are
  integer cents. Ordinary delivery costs 200.00 below a 2000.00 subtotal and
  nothing from 2000.00 on. Express delivery costs 500.00. A null delivery
  type costs nothing.
- **The serializers**: the field pipeline of `PaymentSerializer`, including
  `validate_number`. The choice and text fields of `OrderSerializer` under a
  partial update, and its representation with the total recomputed.
- **The checkout views.** Each view is a function from a `Shop` state to a new
  state and a response. `Shop` holds the catalog, the session cart, the order
  table, the payment table and the next order id. The views are:
  - order creation, which snapshots the cart into order items;
  - checkout submission;
  - card payment;
  - payment through someone else's account;
  - payment progress.

Modules follow the source files:

| module | file | models |
|---|---|---|
| `Results` | `results.dfy` | the `Option` and `Result` types |
| `Numerals` | `numerals.dfy` | the Python built-ins the code relies on: `str(int)`, `int(str)`, `isdigit`, `strip` |
| `Catalog` | `catalog.dfy` | products, catalog filters and sort, the limited list |
| `Pagination` | `pagination.dfy` | `CatalogPagination` |
| `ProductAdmin` | `product_admin.dfy` | `description_short` |
| `SessionCart` | `cart.dfy` | `Cart` |
| `BasketApi` | `basket_api.dfy` | `CartAPIView` |
| `OrderModels` | `order_models.dfy` | `Order`, `OrderItem`, `Payment` and pricing |
| `OrderSerializers` | `order_serializers.dfy` | `PaymentSerializer`, `OrderSerializer` |
| `OrderViews` | `order_views.dfy` | the order, payment and progress views |

Some behaviour of the code worth knowing when reading the model:

- **The free-delivery threshold is inclusive.** The fee is charged only when
  the subtotal is below 2000.00, so a subtotal of exactly 2000.00 ships free
  (`ThresholdIsInclusive`).
- **A failed card payment leaves the order as it was.** The view assigns
  `order.status = 'error'` but never saves the order
  (megano/orderapp/views.py:233). The stored order keeps its status; only the
  payment row records the error (`Pay`, `Settle`).
- **Checkout of an order paid by someone else stays `accepted`.** `confirmed`
  is assigned at megano/orderapp/views.py:107, after the last save at line 102,
  so the stored status stays `accepted` and only the redirect is returned
  (`SubmitCheckout`).
- **Order creation never empties the cart.** The view calls a cart method that
  does not exist. See Findings.
- **Paying through someone else answers 500.** The order is saved as
  `confirmed`, and then rendering the response fails. See Findings.

Some details of the model:

- **Cart keys and counts.** The cart keeps its keys in insertion order next
  to the count map, because iteration follows dict order. Counts are
  integers of either sign: the basket endpoint refuses only a count that is
  missing or zero. Text counts are not modelled (see Left out).
- **The signed-in user** is the id of their profile.
- **Exceptions.** An exception the view does not catch becomes a 500 response
  with nothing rolled back, since Django runs in autocommit mode.

## Model

| member | source | states |
|---|---|---|
| `SessionCart.SameEntry` | megano/shopapp/utils/cart.py:31-35 | ids are normalised with `str`, so a number and a string name the same entry exactly when the string is the number's decimal form; distinct numbers never share an entry |
| `SessionCart.Load` | megano/shopapp/utils/cart.py:17-21 | a missing or empty stored cart gives an empty cart; otherwise the stored entries are kept |
| `SessionCart.Add` | megano/shopapp/utils/cart.py:23-36 | a new id gets exactly the given count and is appended in order; an existing id's count rises by exactly that count; every other entry is unchanged |
| `SessionCart.Remove` | megano/shopapp/utils/cart.py:45-55 | exactly that key disappears. The rest keep their counts and their order: the key at position i leaves the keys before it followed by the keys after it. Removing an absent id changes nothing |
| `SessionCart.WithoutAt` | megano/shopapp/utils/cart.py:45-55 | in a sequence of distinct keys, removing the key at position i leaves the keys before it followed by the keys after it |
| `SessionCart.AddThenRemove` | megano/shopapp/utils/cart.py:31-54 | adding an id the cart lacks and then removing it gives back the original cart |
| `SessionCart.LenAfterAdd` | megano/shopapp/utils/cart.py:68-72 | the count total rises by exactly the added count |
| `SessionCart.LenAfterRemove` | megano/shopapp/utils/cart.py:68-72 | the count total falls by exactly the removed entry's count, or stays the same for an absent id |
| `SessionCart.Lookup` | megano/shopapp/utils/cart.py:61-64 | the product found for a key is the one whose `str(id)` is the key, and there is one exactly when such a product exists |
| `SessionCart.Iterate` | megano/shopapp/utils/cart.py:57-66 | one line per entry in cart order, with the entry's count and the product whose `str(id)` is its key. A non-numeric key makes the product query fail. A key naming a product under a non-canonical numeral fails the attach step |
| `SessionCart.IterateCanonicalKeys` | megano/shopapp/utils/cart.py:57-66 | a cart whose keys are all `str` forms of ids can always be iterated |
| `SessionCart.TotalPrice` | megano/shopapp/utils/cart.py:74-78 | the total is defined exactly when every line has its product attached |
| `SessionCart.TotalPriceIsAmount` | megano/shopapp/utils/cart.py:74-78 | for all lines with products, negative counts included, the total equals the sum of price × count summed independently from the last line back |
| `SessionCart.TotalPriceOfTwo` | megano/shopapp/utils/cart.py:74-78 | the total of two attached lines is the sum of their price × count |
| `BasketApi.Post` | megano/shopapp/views.py:336-357 | for a JSON integer count: a missing or zero id or count gives 400; a known id with an unknown product gives 404; otherwise the product is added. The cart changes only on success |
| `BasketApi.Delete` | megano/shopapp/views.py:359-380 | a missing id gives 400; an unknown product gives 404; otherwise the entry is removed. The cart changes only on success |
| `BasketApi.Get` | megano/shopapp/views.py:321-334 | the listing succeeds exactly when every entry has its product, and then gives one item per entry, in order, with its count and its catalog product |
| `BasketApi.LeadingZeroBreaksListing` | megano/shopapp/views.py:336-357 | posting product 5 as "05" succeeds, after which the basket listing fails |
| `Catalog.Filter` | megano/shopapp/views.py:214-238 | a filter keeps exactly the rows that satisfy its condition, without adding any |
| `Catalog.FilterByCategory` | megano/shopapp/views.py:203-212 | a truthy subcategory keeps exactly the products whose category lists it; otherwise a truthy category keeps exactly that category; otherwise nothing is filtered. A non-numeric id is an error |
| `Catalog.SubcategoryOverridesCategory` | megano/shopapp/views.py:207-210 | when a subcategory is given, the category parameter has no effect |
| `Catalog.SortBy` | megano/shopapp/views.py:241-247 | the result is ordered on the field, ascending or descending, and is a permutation of the input |
| `Catalog.FilterStepsMeaning` | megano/shopapp/views.py:214-238 | the chain of filter steps equals one filter by the conjunction of all switched-on conditions |
| `Catalog.ApplyFiltersMeaning` | megano/shopapp/views.py:214-249 | filtering fails exactly on a malformed price bound. Without `sort` the database order is kept. With `sort` the same rows come out ordered, descending exactly when `sortType` is "dec" |
| `Catalog.ApplyFiltersNarrows` | megano/shopapp/views.py:214-249 | every row that comes out was in the input, and it matches every switched-on condition (inclusive price bounds, flags only on the exact text "true") |
| `Catalog.CatalogQuery` | megano/shopapp/views.py:192-201 | the rows returned are rows of the table that match the query; category errors pass through, and price errors are raised exactly for malformed bounds |
| `Catalog.CatalogList` | megano/shopapp/views.py:187-201 | a page holds at most the requested page size of matching rows; without a page number the first page is served. A successful query is answered 404 exactly when the page parameter names no page in 1..last (a non-numeral included) |
| `Catalog.CatalogPageServed` | megano/shopapp/views.py:187-201 | a served catalog page is the requested page of the query's rows: the number asked for (1 by default, the last for "last"), the last page, and exactly the rows of that page |
| `Catalog.Take` | megano/shopapp/views.py:274-276 | a slice `[:n]` is the prefix of length min(n, length) |
| `Catalog.LimitedOnly` | megano/shopapp/views.py:274-274 | the limited filter keeps exactly the limited-edition products |
| `Catalog.LimitedProductsAsWritten` | megano/shopapp/views.py:274-276 | the query names a field the Product model lacks, so it always fails |
| `Catalog.LimitedProducts` | megano/shopapp/views.py:274-276 | at most 16 products, all of them limited-edition rows of the table, forming the first min(16, n) of the n limited-edition products in table order |
| `Catalog.LimitedListCounterexample` | megano/shopapp/views.py:274-276 | a catalog with one limited-edition product: the view as written fails, while the intended list shows that product |
| `Pagination.PageSize` | megano/shopapp/views.py:158-160 | a positive `limit` is taken, capped at 1000; anything else gives 20 |
| `Pagination.PageCountFits` | megano/shopapp/views.py:170-170 | there is at least one page, and the pages are just enough to hold every row |
| `Pagination.Paginate` | megano/shopapp/views.py:162-177 | a page is served exactly for a number between 1 and the last page ("last" names the last page). It reports the last page and holds at most a page size of rows from the list |
| `Pagination.PaginateServes` | megano/shopapp/views.py:162-177 | every page served is the requested one: its number, the last page and exactly the rows at positions (n - 1) × size up to n × size |
| `Pagination.PageServed` | megano/shopapp/views.py:162-177 | a page parameter naming an existing page n serves exactly the rows of page n, and reports n and the last page |
| `Pagination.EveryItemOnItsPage` | megano/shopapp/views.py:152-177 | row i is found on page i / size + 1, at position i mod size |
| `ProductAdmin.Shorten` | megano/shopapp/admin.py:16-19 | a description shorter than 48 characters is unchanged. A longer one becomes its first 48 characters and "...", 51 in all. The result always starts with the first min(length, 48) characters |
| `ProductAdmin.ShortenIdempotent` | megano/shopapp/admin.py:17-19 | shortening a shortened description changes nothing |
| `ProductAdmin.DescriptionShort` | megano/shopapp/admin.py:16-19 | defined exactly for products with a description, and then at most 51 characters: the description shortened as `ProductAdmin.Shorten` states |
| `OrderModels.NewOrder` | megano/orderapp/models.py:23-33 | a new order is pending, with ordinary delivery and online payment, no items and no stored total |
| `OrderModels.SubtotalAppend` | megano/orderapp/models.py:48-52 | the subtotal of joined item lists is the sum of their subtotals |
| `OrderModels.SubtotalNonNegative` | megano/orderapp/models.py:48-52 | with non-negative prices the subtotal is non-negative |
| `OrderModels.DeliveryCost` | megano/orderapp/models.py:40-46 | ordinary delivery costs 200.00 exactly when the subtotal is below 2000.00, and 0 exactly when it is at least 2000.00. Express always costs 500.00. A null type costs 0. The fee never exceeds 500.00 |
| `OrderModels.TotalCostBounds` | megano/orderapp/models.py:54-61 | total = subtotal + delivery fee, hence subtotal ≤ total ≤ subtotal + 500.00 |
| `OrderModels.ThresholdIsInclusive` | megano/orderapp/models.py:42-43 | with ordinary delivery a subtotal of exactly 2000.00 ships free, and one cent less pays the fee |
| `OrderModels.WorkedExample` | megano/orderapp/models.py:40-61 | items 500.00×2 and 800.00×1 give 2000.00 with ordinary delivery and 2300.00 with express |
| `Numerals.LastDigitDecides` | megano/orderapp/views.py:223-226 | a digit string's value mod 10 and mod 2 are decided by its last digit |
| `OrderSerializers.ValidateNumber` | megano/orderapp/serializers.py:93-103 | accepts exactly the non-empty digit strings of length ≤ 8 whose last digit is even. The checks run in order (digits, length, parity) and the first failure decides the message. An accepted value is returned unchanged |
| `OrderSerializers.EmptyNumberNotDigits` | megano/orderapp/serializers.py:95-96 | the empty string is refused as not all digits |
| `OrderSerializers.ValidateNumberIdempotent` | megano/orderapp/serializers.py:103-103 | re-validating an accepted number accepts it again |
| `OrderSerializers.AcceptedNumberIsEven` | megano/orderapp/serializers.py:101-103 | an accepted number denotes an even integer |
| `OrderSerializers.RequiredText` | megano/orderapp/serializers.py:89-91 | a required model text field refuses a missing, null or blank value. It accepts exactly a trimmed value within the column width that holds no null character, and returns that trimmed value |
| `OrderSerializers.NumberField` | megano/orderapp/serializers.py:87-103 | the `number` field accepts exactly the values whose trimmed form is at most 8 digits and ends in an even digit |
| `OrderSerializers.NumberTooLongUnreachable` | megano/orderapp/serializers.py:97-100 | the field's own max_length runs first, so the length message of `validate_number` is never produced |
| `OrderSerializers.PaddedNumberAccepted` | megano/orderapp/serializers.py:87-96 | any number `validate_number` accepts is accepted by the field with a space on each side, as the bare digits |
| `OrderSerializers.ValidatePayment` | megano/orderapp/serializers.py:84-103 | valid exactly when all five fields are. The validated data respects the column widths. On failure every failing field, and only those, is reported |
| `OrderSerializers.ParseDelivery` | megano/orderapp/models.py:9-12 | a text names a delivery choice exactly when it is that choice's code |
| `OrderSerializers.ParsePayment` | megano/orderapp/models.py:13-16 | a text names a payment choice exactly when it is that choice's code |
| `OrderSerializers.ParseStatus` | megano/orderapp/models.py:17-22 | a text names a status exactly when it is that status's code |
| `OrderSerializers.ChoicesRoundTrip` | megano/orderapp/models.py:9-22 | each choice is read back from its own code |
| `OrderSerializers.ChoiceField` | megano/orderapp/serializers.py:27-35 | under a partial update, an absent value keeps the field and null clears it. A text is accepted exactly when it is a declared choice; the empty text is not |
| `OrderSerializers.OptionalText` | megano/orderapp/serializers.py:36-41 | `city` and `address`: absent keeps, null clears, and a text is stored trimmed unless it holds a null character |
| `OrderSerializers.ValidateOrderUpdate` | megano/orderapp/serializers.py:27-41 | an update is valid exactly when each given choice is declared and no text holds a null character. Then each field is kept exactly when absent, cleared when null, set to the choice its code names when a choice is given, and set to the trimmed text when a text is given |
| `OrderSerializers.ValidChanges` | megano/orderapp/serializers.py:27-41 | for a valid update, field by field: absent keeps, null clears, a given choice code sets that choice, a given text sets its trimmed value |
| `OrderSerializers.ApplyChanges` | megano/orderapp/views.py:89-92 | saving an update sets each given field (delivery, payment, status, city, address) to its new value and keeps every absent one. The items, owner and stored total are kept |
| `OrderSerializers.Represent` | megano/orderapp/serializers.py:75-81 | the rendered total is the recomputed total, between the subtotal and the subtotal plus 500.00. Delivery type, payment type and status render as codes that read back as the stored choices, and a null choice stays null. City and address are rendered as stored |
| `OrderSerializers.RepresentIgnoresStoredTotal` | megano/orderapp/serializers.py:75-81 | the stored `totalCost` plays no part in the rendered order |
| `OrderViews.ItemOf` | megano/orderapp/views.py:39-44 | an order item copies the product id, the product's current price and the entry's count |
| `OrderViews.Snap` | megano/orderapp/views.py:38-44 | one item per entry in cart order. The loop stops at the first entry without a product or with a negative count, and it completes exactly when there is no such entry |
| `OrderViews.SnapKeepsTotal` | megano/orderapp/views.py:38-44 | a complete snapshot's subtotal equals the cart's total price |
| `OrderViews.PlaceOrder` | megano/orderapp/views.py:28-49 | a new pending order of the user is stored under a fresh id. Its items are those created before the loop stopped: none when iterating the cart raises, otherwise one per entry up to the first entry without a product or with a negative count. The cart, payments and other orders are untouched |
| `OrderViews.CompleteSnapshot` | megano/orderapp/views.py:38-44 | a complete snapshot has one item per cart entry, with the entry's product at its catalog price and the entry's count |
| `OrderViews.CreateOrderAsWritten` | megano/orderapp/views.py:26-53 | the view as written always answers 500, stores the new order with the items created before the loop stopped, and leaves the cart as it was |
| `OrderViews.CreateOrder` | megano/orderapp/views.py:26-53 | on 201 the order holds one item per cart entry at the current price and count, its subtotal is the cart total, and the cart is empty. Otherwise the answer is 500, the cart is kept, and the order keeps the items created before the loop stopped |
| `OrderViews.CreateOrderAsWrittenDiffers` | megano/orderapp/views.py:49-53 | both versions store the same rows; only the cart and the response differ |
| `OrderViews.CreateOrderCounterexample` | megano/orderapp/views.py:49-53 | with one unit of product 5 in the cart, the corrected view answers 201 and empties the cart, while the view as written answers 500 and keeps it |
| `OrderViews.SubmitCheckout` | megano/orderapp/views.py:85-113 | 404 for an order that is not the user's; 400 with the errors for invalid data; 500 for a null status. In all three nothing changes. On success only that order changes: it becomes the order `OrderViews.CheckedOut` states, with status `accepted`, the total recomputed and the request's fields merged in. A `someone` order gets 200 with the `payment-someone` redirect, while its stored status stays `accepted`. Any other order gets 201 |
| `OrderViews.CheckedOut` | megano/orderapp/views.py:89-102 | the saved order keeps its id, owner and items. It takes status `accepted` and the recomputed total. Delivery type, payment type, city and address are merged from the request: absent keeps, null clears, a given value is stored |
| `OrderViews.CheckoutStoresRequest` | megano/orderapp/views.py:89-109 | after a successful checkout the stored delivery type, payment type, city and address are the request's values merged over the order's previous ones. The redirect is answered exactly when the request sends `someone`, or sends no payment type and the order already had `someone` |
| `OrderViews.CheckoutTotalIsRendered` | megano/orderapp/views.py:98-102 | after checkout the stored total equals the total the API renders |
| `OrderViews.PaymentFor` | megano/orderapp/views.py:227-232 | a stored payment belongs to its order, fits the column widths and carries the given status and message |
| `OrderViews.Charge` | megano/orderapp/views.py:223-234 | the view's own card check never fails after the serializer. A payment is stored: `confirmed` with a 200 exactly when the last digit is not 0, otherwise `error` with "Payment error" and a 400 |
| `OrderViews.Settle` | megano/orderapp/views.py:214-239 | a non-online order gets 400 with no errors; a second payment gets 400. In both nothing changes. Otherwise exactly one payment is added. Orders are never changed |
| `OrderViews.Pay` | megano/orderapp/views.py:198-239 | 404 for an order that is not the user's, and 400 with the serializer's errors for invalid data; in both nothing changes. Otherwise it settles the payment. The "Invalid card number" answer never occurs, and the order table never changes |
| `OrderViews.PayTwice` | megano/orderapp/views.py:219-221 | valid card data for the user's unpaid online order stores a payment; a second request for that order is then refused with 400 and changes nothing |
| `OrderViews.DrawAccountNumber` | megano/orderapp/views.py:249-249 | the account number is exactly 8 digits |
| `OrderViews.PaySomeoneAsWritten` | megano/orderapp/views.py:245-261 | 404 and no change for an order that is not the user's. Otherwise the order's stored status becomes `confirmed`, nothing else changes, and the answer is 500 |
| `OrderViews.PaySomeoneCounterexample` | megano/orderapp/views.py:252-260 | for a shop with one pending order of the user, the view as written stores `confirmed` and answers 500 |
| `OrderViews.PaySomeone` | megano/orderapp/views.py:245-261 | the corrected view stores exactly what the view as written stores. For the user's order it answers 200 with an 8-digit account number |
| `OrderViews.PaymentProgress` | megano/orderapp/views.py:283-295 | 404 for an order that is not the user's, 404 "No payment found" without a payment, otherwise 200 with the payment's status code and error message |
| `OrderViews.SettleThenProgress` | megano/orderapp/views.py:226-234 | the same one step in: once an unpaid online order is settled, progress reports `confirmed` after a 200 and `error` with "Payment error" otherwise |
| `OrderViews.PayThenProgress` | megano/orderapp/views.py:226-234 | after valid card data for the user's unpaid online order, progress reports `confirmed` when the payment answered 200 and `error` with "Payment error" otherwise |

## Left out

- Sessions, the ORM, HTTP and authentication are replaced by the explicit
  `Shop` state, the `Cart` value and the request fields. The signed-in user is
  the id of their profile. Requests from anonymous users (403) are not modelled.
- The `print` calls in `OrdersAPIView.post`, `OrderDetailAPIView.post`, the
  payment views (megano/orderapp/views.py) and the `calculate_*` methods of
  megano/orderapp/models.py only write to the console and change no state or
  response, so they are not modelled.
- `Numerals.ParseInt`: only an optional sign followed by ASCII digits is
  accepted. Python's `int()` also takes surrounding whitespace, underscores
  and other Unicode decimal digits.
- `Numerals.IsDigit`: ASCII digits only. Python's `isdigit` also accepts
  other Unicode digits, some of which `int()` then refuses.
- `Numerals.Strip`: only whitespace up to U+00FF is stripped.
- Catalog.TitleContains: the `icontains` title filter is case-sensitive
  here, because Unicode case folding is not modelled.
- `Catalog.Query`: price bounds arrive already decoded, as cents or as
  malformed. Decimal parsing is not modelled.
- Catalog sort: only numeric fields are sortable, and `sort` is already
  decoded. Text-field ordering and the error for an unknown field are not
  modelled. Equal keys keep no particular order.
- The `SearchFilter` and `OrderingFilter` backends of `CatalogAPIView` are not
  modelled: they do nothing without `search_fields` or an `ordering` parameter.
- Product serialization (images, tags, reviews) is replaced by the `Product`
  record. Ratings are in tenths and dates are abstract integers.
- `PopularProductsAPIView` is not modelled: it calls a `top_products` method
  the Product model does not define. `SaleAPIView`, `BannerList`, the product,
  tag and category views, and all of `myauth` are not modelled.
- The orders list, the order detail GET and the order history are not
  modelled. The history orders by a nonexistent `created_at` field.
- The superseded first definitions of `PaymentAPIView`,
  `PaymentSomeoneAPIView` and `ProgressPaymentView` in
  megano/orderapp/views.py:126-193 and 264-279 are not modelled. Python
  binds the later ones.
- `shopapp/views.py:11`, `shopapp/serializers.py:12-13` and `shopapp/admin.py:2-3`
  import `Banner` and `CartItem`, which megano/shopapp/models.py does not
  define, so the catalog, basket and admin modules cannot import as shipped.
  The model takes these imports to resolve and `Product` to have exactly the
  fields megano/shopapp/models.py declares. The file also lacks the
  `sales_count` field that migration 0018 of shopapp alters.
- `orderapp/serializers.py` imports `PaymentSomeone`, whose model is commented
  out, so the module cannot import as shipped. The model treats that import
  as resolved to the model created by
  megano/orderapp/migrations/0019_paymentsomeone.py.
- `OrderViews.PaySomeone`: the 200 answer with the account number cannot
  happen as shipped. Rendering the order with `PaymentSomeoneSerializer` fails
  on its required `number` field, so the view answers 500 after saving
  `confirmed` (`OrderViews.PaySomeoneAsWritten`; see Findings). The corrected
  method also leaves out the `order` part of that answer.
- `BasketApi.Post`: counts are taken to be JSON integers. The view stores
  `request.data.get("count")` unconverted, so a form-encoded body or a JSON
  string stores text. The text "0" is then accepted, adding "2" twice stores
  "22", and mixing text and numbers makes `add` or `len` raise `TypeError`.
  Modelling that would need cart counts that are either numbers or text.
  Ids are likewise taken to be JSON integers or strings. A JSON id such as
  `5.5` or `true` is also accepted: the lookup converts it to product 5 or 1,
  the cart stores the key "5.5" or "True" and answers 200, and the next
  listing then fails on that key as it does for "05"
  (`BasketApi.LeadingZeroBreaksListing`).
- The `payment-someone` route carries no order id, while the view requires
  one. The model takes the id as given.
- `OrderSerializers.OptionalText`: the model column widths of `city` (100)
  and `address` (255) are not enforced. The serializer declares these fields
  without a maximum, so whether a longer value is refused depends on the
  database.
- The fields of the profile (`fullName`, `email`, `phone`), `createdAt` and
  the image of an order item are not rendered.
- `OrderModels.Subtotal`: amounts are unbounded integers. The 10-digit
  `max_digits` limit of the decimal columns is not modelled.
- `Cart.__iter__` also writes the fetched Product objects into the session
  dict. That side effect is not modelled.
- Payment timestamps and "latest payment" ordering are not modelled. The
  one-to-one key allows at most one payment per order, so the latest payment
  is the only one.
- `OrderViews.DrawAccountNumber`: `random.randint` is modelled as an
  unconstrained choice of each digit.

## Findings

| source | as written | input that shows it | evidently intended | confidence | as-written member | corrected member |
|---|---|---|---|---|---|---|
| megano/orderapp/views.py:50 | `cart.clear()` is called, but `Cart` defines no `clear`. The request ends in a 500 after the order and its items are stored, and the cart keeps its entries | a cart holding one unit of product 5 | the cart is emptied and 201 is returned with the order id | high; not executed | `OrderViews.CreateOrderAsWritten`, shown by `OrderViews.CreateOrderCounterexample` | `OrderViews.CreateOrder` |
| megano/shopapp/views.py:274 | the query filters on `limited_edition`, which the Product model does not declare, so every request fails | a catalog with one limited-edition product | the first 16 limited-edition products | high, taking the Product declaration in megano/shopapp/models.py as the one the program runs with (see Left out: that file lacks `Banner` and `CartItem`, which the same modules import); not executed | `Catalog.LimitedProductsAsWritten`, shown by `Catalog.LimitedListCounterexample` | `Catalog.LimitedProducts` |
| megano/orderapp/views.py:252-260 | the order is saved as `confirmed`, then the answer renders the order with `PaymentSomeoneSerializer`. That serializer's required `number` field is read from the order, which has no such attribute, so the request ends in a 500 | any order of the signed-in user, for example a shop with one pending order 1 of profile 7 | 200 with the eight-digit account number and the order confirmed | high (this assumes the `PaymentSomeone` import resolves to the model of migration 0019); not executed | `OrderViews.PaySomeoneAsWritten`, shown by `OrderViews.PaySomeoneCounterexample` | `OrderViews.PaySomeone` |

=== FILE: basket_api.dfy ===
/**
 `CartAPIView` in shopapp/views.py: the `/basket` endpoint. Its POST and
 DELETE guard the cart operations with a 400 for a missing parameter and a
 404 for an unknown product; GET lists the entries with their products.
 */
module BasketApi {
  import opened Results
  import opened Numerals
  import opened Catalog
  import opened SessionCart

  /** The `id` field of the request body: absent (or null), a JSON number, or a string. */
  datatype IdParam = NoId | IdNumber(n: int) | IdText(s: string)

  /** The `count` field of the request body: absent (or null), or a JSON integer. A count sent as text is not modelled. */
  datatype CountParam = NoCount | CountOf(n: int)

  /** Python truthiness of the id: absent, `0` and `""` are false. */
  predicate IdGiven(id: IdParam) {
    match id
    case NoId => false
    case IdNumber(n) => n != 0
    case IdText(s) => s != ""
  }

  predicate CountGiven(count: CountParam) {
    count.CountOf? && count.n != 0
  }

  /** The reference `cart.add` and `cart.remove` receive. */
  function RefOf(id: IdParam): ProductRef
    requires !id.NoId?
  {
    match id
    case IdNumber(n) => IntRef(n)
    case IdText(s) => StrRef(s)
  }

  /** The primary key `Product.objects.get(id=...)` looks up; `None` is the `ValueError` of a non-numeric text. */
  function PrimaryKey(id: IdParam): Option<int>
    requires !id.NoId?
  {
    match id
    case IdNumber(n) => Some(n)
    case IdText(s) => ParseInt(s)
  }

  /** The HTTP status and message of a basket response. */
  datatype Response = Response(status: int, message: string)

  const Added := Response(200, "Product added to basket")
  const Removed := Response(200, "Product removed from basket")
  const NotFound := Response(404, "Product not found")
  const InvalidRequest := Response(400, "Invalid request")
  /** An uncaught exception. */
  const ServerError := Response(500, "Internal server error")

  /** `CartAPIView.post`. */
  function Post(c: Cart, table: map<int, Product>, id: IdParam, count: CountParam): (result: (Cart, Response))
    requires Valid(c)
    ensures Valid(result.0)
    ensures result.1 == InvalidRequest <==> !IdGiven(id) || !CountGiven(count)
    ensures result.1 == NotFound <==>
              IdGiven(id) && CountGiven(count) && PrimaryKey(id).Some? && PrimaryKey(id).value !in table
    ensures result.1 == Added <==>
              IdGiven(id) && CountGiven(count) && PrimaryKey(id).Some? && PrimaryKey(id).value in table
    ensures result.1 == Added ==> result.0 == Add(c, RefOf(id), count.n)
    ensures result.1 != Added ==> result.0 == c
  {
    if IdGiven(id) && CountGiven(count) then
      match PrimaryKey(id)
      case None => (c, ServerError)
      case Some(pk) =>
        if pk !in table then (c, NotFound)
        else (Add(c, RefOf(id), count.n), Added)
    else (c, InvalidRequest)
  }

  /** `CartAPIView.delete`. */
  function Delete(c: Cart, table: map<int, Product>, id: IdParam): (result: (Cart, Response))
    requires Valid(c)
    ensures Valid(result.0)
    ensures result.1 == InvalidRequest <==> !IdGiven(id)
    ensures result.1 == NotFound <==> IdGiven(id) && PrimaryKey(id).Some? && PrimaryKey(id).value !in table
    ensures result.1 == Removed <==> IdGiven(id) && PrimaryKey(id).Some? && PrimaryKey(id).value in table
    ensures result.1 == Removed ==> result.0 == Remove(c, RefOf(id))
    ensures result.1 != Removed ==> result.0 == c
  {
    if IdGiven(id) then
      match PrimaryKey(id)
      case None => (c, ServerError)
      case Some(pk) =>
        if pk !in table then (c, NotFound)
        else (Remove(c, RefOf(id)), Removed)
    else (c, InvalidRequest)
  }

  /** One element of the GET response: the product and the count in the cart. */
  datatype BasketItem = BasketItem(product: Product, count: int)

  /**
   `CartAPIView.get`: every entry with its product, in insertion order. An entry
   whose product has left the catalog makes `item["product"]` raise, so the whole
   request fails instead of skipping it.
   */
  function Get(c: Cart, table: map<int, Product>): (r: Result<seq<BasketItem>, Response>)
    requires Valid(c) && TableValid(table)
    ensures r.Ok? <==> Iterate(c, table).Ok? && AllAttached(Iterate(c, table).value)
    ensures r.Err? ==> r.error == ServerError
    ensures r.Ok? ==> |r.value| == |c.keys|
                      && forall i :: 0 <= i < |c.keys| ==>
                           && r.value[i].count == c.counts[c.keys[i]]
                           && IntToDecimal(r.value[i].product.id) == c.keys[i]
                           && table[r.value[i].product.id] == r.value[i].product
  {
    match Iterate(c, table)
    case Err(_) => Err(ServerError)
    case Ok(lines) =>
      if AllAttached(lines) then
        Ok(seq(|lines|, i requires 0 <= i < |lines| && AllAttached(lines) => BasketItem(lines[i].product.value, lines[i].count)))
      else Err(ServerError)
  }

  /**
   Adding a product by a numeral with a leading zero stores it under that text,
   while iteration looks it up under `str(id)`: the basket then cannot be listed.
   */
  lemma LeadingZeroBreaksListing(p: Product)
    requires p.id == 5
    ensures var table := map[5 := p];
            var (c, resp) := Post(Empty, table, IdText("05"), CountOf(1));
            resp == Added && Get(c, table) == Err(ServerError)
  {
    var table := map[5 := p];
    assert ParseInt("05") == Some(5) by {
      assert IsDigitString("05");
      assert Value("05") == 10 * Value("0") + 5;
      assert Value("0") == 10 * Value("") + 0;
    }
    var c := Post(Empty, table, IdText("05"), CountOf(1)).0;
    assert c.keys == ["05"];
    assert IntToDecimal(5) == "5";
    assert MissesCanonicalKey(c, table) by {
      assert ParseInt(c.keys[0]) == Some(5);
    }
  }
}

=== FILE: cart.dfy ===
/**
 The session cart of shopapp/utils/cart.py: a dict from the string form of a
 product id to a count. Python dicts remember insertion order, and iteration
 follows it, so the model keeps the keys in order beside the count map.
 */
module SessionCart {
  import opened Results
  import opened Numerals
  import opened Catalog

  /** A product id as a request carries it: a JSON number or a string. */
  datatype ProductRef = IntRef(n: int) | StrRef(s: string)

  /** `str(product_id)`: the session key an id is stored under. */
  function Key(id: ProductRef): string {
    match id
    case IntRef(n) => IntToDecimal(n)
    case StrRef(s) => s
  }

  /** A number and a string address the same entry exactly when the string is the number written in decimal. */
  lemma SameEntry(n: int, m: int, s: string)
    ensures Key(IntRef(n)) == Key(StrRef(s)) <==> s == IntToDecimal(n)
    ensures Key(IntRef(n)) == Key(IntRef(m)) <==> n == m
  {
    IntToDecimalInjective(n, m);
  }

  predicate Distinct(keys: seq<string>) {
    forall i, j :: 0 <= i < j < |keys| ==> keys[i] != keys[j]
  }

  /** The session dict: a count per key, and the keys in insertion order. */
  datatype Cart = Cart(keys: seq<string>, counts: map<string, int>)

  /** Each key appears once in the order, and the order lists exactly the map's keys. */
  ghost predicate Valid(c: Cart) {
    && Distinct(c.keys)
    && (forall k :: k in c.counts <==> k in c.keys)
  }

  const Empty: Cart := Cart([], map[])

  /** `Cart.__init__`: the cart stored in the session, or a fresh empty one. */
  function Load(stored: Option<Cart>): (c: Cart)
    requires stored.Some? ==> Valid(stored.value)
    ensures Valid(c)
    ensures stored.None? ==> c.counts == map[]
    ensures stored.Some? ==> c.counts == stored.value.counts && c.keys == stored.value.keys
  {
    match stored
    case None => Empty
    case Some(c) => if |c.keys| == 0 then Empty else c
  }

  /** The keys without `k`, others in their order. */
  function Without(keys: seq<string>, k: string): (r: seq<string>)
    ensures forall x :: x in r <==> x in keys && x != k
    ensures Distinct(keys) ==> Distinct(r)
    ensures k !in keys ==> r == keys
  {
    if |keys| == 0 then []
    else if keys[0] == k then Without(keys[1..], k)
    else
      var rest := Without(keys[1..], k);
      assert Distinct(keys) ==> keys[0] !in keys[1..];
      [keys[0]] + rest
  }

  /** `Cart.add`: insert with the given count, or add the count to the existing entry. */
  function Add(c: Cart, id: ProductRef, count: int): (r: Cart)
    requires Valid(c)
    ensures Valid(r)
    ensures Key(id) in r.counts
    ensures Key(id) !in c.counts ==> r.counts[Key(id)] == count && r.keys == c.keys + [Key(id)]
    ensures Key(id) in c.counts ==> r.counts[Key(id)] == c.counts[Key(id)] + count && r.keys == c.keys
    ensures forall k :: k != Key(id) ==> (k in r.counts <==> k in c.counts)
    ensures forall k :: k != Key(id) && k in c.counts ==> r.counts[k] == c.counts[k]
  {
    var key := Key(id);
    if key !in c.counts then Cart(c.keys + [key], c.counts[key := count])
    else Cart(c.keys, c.counts[key := c.counts[key] + count])
  }

  /** `Cart.remove`: drop the entry if there is one. */
  function Remove(c: Cart, id: ProductRef): (r: Cart)
    requires Valid(c)
    ensures Valid(r)
    ensures r.counts == c.counts - {Key(id)}
    ensures Key(id) !in c.counts ==> r == c
    ensures forall k :: k in r.keys <==> k in c.keys && k != Key(id)
    ensures forall i :: 0 <= i < |c.keys| && c.keys[i] == Key(id) ==> r.keys == c.keys[..i] + c.keys[i + 1..]
  {
    var key := Key(id);
    WithoutAt(c.keys, key);
    if key in c.counts then Cart(Without(c.keys, key), c.counts - {key}) else c
  }

  /** Taking out a key that occurs once closes the gap it leaves: the other keys keep their order. */
  lemma {:induction false} WithoutSplice(before: seq<string>, k: string, after: seq<string>)
    requires k !in before && k !in after
    ensures Without(before + [k] + after, k) == before + after
  {
    if |before| == 0 {
      assert before + [k] + after == [k] + after;
      WithoutHead(k, after);
    } else {
      var tail := before[1..];
      assert before + [k] + after == [before[0]] + (tail + [k] + after);
      WithoutCons(before[0], tail + [k] + after, k);
      WithoutSplice(tail, k, after);
      assert before == [before[0]] + tail;
      SpliceAssoc([before[0]], tail, after);
    }
  }

  lemma SpliceAssoc(a: seq<string>, b: seq<string>, c: seq<string>)
    ensures (a + b) + c == a + (b + c)
  {
  }

  lemma WithoutHead(k: string, rest: seq<string>)
    ensures Without([k] + rest, k) == Without(rest, k)
  {
    assert ([k] + rest)[1..] == rest;
  }

  lemma WithoutCons(h: string, rest: seq<string>, k: string)
    requires h != k
    ensures Without([h] + rest, k) == [h] + Without(rest, k)
  {
    assert ([h] + rest)[1..] == rest;
  }

  /** In a sequence of distinct keys, removing the key at position `i` leaves the keys before it and after it. */
  lemma WithoutAt(keys: seq<string>, k: string)
    requires Distinct(keys) || k !in keys
    ensures forall i :: 0 <= i < |keys| && keys[i] == k ==> Without(keys, k) == keys[..i] + keys[i + 1..]
  {
    forall i | 0 <= i < |keys| && keys[i] == k
      ensures Without(keys, k) == keys[..i] + keys[i + 1..]
    {
      assert keys == keys[..i] + [k] + keys[i + 1..];
      assert k !in keys[..i] by {
        forall j | 0 <= j < i ensures keys[..i][j] != k {
          assert keys[j] != keys[i];
        }
      }
      assert k !in keys[i + 1..] by {
        var rest := keys[i + 1..];
        forall j | 0 <= j < |rest| ensures rest[j] != k {
          assert rest[j] == keys[i + 1 + j];
        }
      }
      WithoutSplice(keys[..i], k, keys[i + 1..]);
    }
  }

  /** Adding an id the cart lacks and then removing it restores the cart. */
  lemma AddThenRemove(c: Cart, id: ProductRef, count: int)
    requires Valid(c) && Key(id) !in c.counts
    ensures Remove(Add(c, id, count), id) == c
  {
    WithoutLast(c.keys, Key(id));
  }

  lemma {:induction false} WithoutLast(keys: seq<string>, k: string)
    requires k !in keys
    ensures Without(keys + [k], k) == keys
  {
    if |keys| > 0 {
      assert (keys + [k])[1..] == keys[1..] + [k];
      WithoutLast(keys[1..], k);
    }
  }

  /** The sum of the counts stored under `keys`. */
  function SumCounts(keys: seq<string>, counts: map<string, int>): int
    requires forall k :: k in keys ==> k in counts
  {
    if |keys| == 0 then 0 else counts[keys[0]] + SumCounts(keys[1..], counts)
  }

  /** `len(cart)`: the total number of units, not of entries. */
  function Len(c: Cart): int
    requires Valid(c)
  {
    SumCounts(c.keys, c.counts)
  }

  lemma {:induction false} SumCountsAppend(keys: seq<string>, counts: map<string, int>, k: string)
    requires forall x :: x in keys ==> x in counts
    requires k in counts
    ensures SumCounts(keys + [k], counts) == SumCounts(keys, counts) + counts[k]
  {
    if |keys| > 0 {
      assert (keys + [k])[1..] == keys[1..] + [k];
      SumCountsAppend(keys[1..], counts, k);
    }
  }

  /** Counts of keys outside `keys` do not enter the sum. */
  lemma {:induction false} SumCountsIgnores(keys: seq<string>, counts: map<string, int>, k: string, v: int)
    requires forall x :: x in keys ==> x in counts
    requires k !in keys
    ensures SumCounts(keys, counts[k := v]) == SumCounts(keys, counts)
  {
    if |keys| > 0 {
      SumCountsIgnores(keys[1..], counts, k, v);
    }
  }

  /** Changing the count of a key that occurs once changes the sum by the difference. */
  lemma {:induction false} SumCountsUpdate(keys: seq<string>, counts: map<string, int>, k: string, v: int)
    requires forall x :: x in keys ==> x in counts
    requires Distinct(keys) && k in keys
    ensures SumCounts(keys, counts[k := v]) == SumCounts(keys, counts) - counts[k] + v
  {
    if keys[0] == k {
      assert k !in keys[1..];
      SumCountsIgnores(keys[1..], counts, k, v);
    } else {
      SumCountsUpdate(keys[1..], counts, k, v);
    }
  }

  /** Removing a key that occurs once takes its count out of the sum. */
  lemma {:induction false} SumCountsWithout(keys: seq<string>, counts: map<string, int>, k: string)
    requires forall x :: x in keys ==> x in counts
    requires Distinct(keys) && k in keys
    ensures SumCounts(Without(keys, k), counts - {k}) == SumCounts(keys, counts) - counts[k]
  {
    if keys[0] == k {
      assert k !in keys[1..];
      SumCountsRestrict(keys[1..], counts, k);
      assert Without(keys[1..], k) == keys[1..];
    } else {
      SumCountsWithout(keys[1..], counts, k);
    }
  }

  lemma {:induction false} SumCountsRestrict(keys: seq<string>, counts: map<string, int>, k: string)
    requires forall x :: x in keys ==> x in counts
    requires k !in keys
    ensures SumCounts(keys, counts - {k}) == SumCounts(keys, counts)
  {
    if |keys| > 0 {
      SumCountsRestrict(keys[1..], counts, k);
    }
  }

  /** `add(id, n)` raises `len(cart)` by exactly `n`, whether or not the id was there. */
  lemma LenAfterAdd(c: Cart, id: ProductRef, count: int)
    requires Valid(c)
    ensures Len(Add(c, id, count)) == Len(c) + count
  {
    var key := Key(id);
    if key !in c.counts {
      SumCountsIgnores(c.keys, c.counts, key, count);
      SumCountsAppend(c.keys, c.counts[key := count], key);
    } else {
      SumCountsUpdate(c.keys, c.counts, key, c.counts[key] + count);
    }
  }

  /** `remove(id)` lowers `len(cart)` by the removed entry's count, and by nothing for an absent id. */
  lemma LenAfterRemove(c: Cart, id: ProductRef)
    requires Valid(c)
    ensures Len(Remove(c, id)) == Len(c) - (if Key(id) in c.counts then c.counts[Key(id)] else 0)
  {
    if Key(id) in c.counts {
      SumCountsWithout(c.keys, c.counts, Key(id));
    }
  }

  /** A dict entry as iteration yields it: the product is attached only when the catalog has one under that key. */
  datatype Line = Line(key: string, product: Option<Product>, count: int)

  /** The exceptions iteration can raise; both end the request with a 500. */
  datatype JoinError =
    | KeyNotANumber   // `filter(id__in=keys)` meets a key `int()` rejects
    | KeyNotCanonical // a matched product's `str(id)` is not itself a key

  /** The product whose `str(id)` is exactly `key`, if the table has one. */
  function Lookup(table: map<int, Product>, key: string): (r: Option<Product>)
    requires TableValid(table)
    ensures r.Some? <==> exists id :: id in table && IntToDecimal(id) == key
    ensures r.Some? ==> r.value.id in table && table[r.value.id] == r.value && IntToDecimal(r.value.id) == key
  {
    match ParseInt(key)
    case None =>
      assert forall id :: IntToDecimal(id) != key by {
        forall id ensures IntToDecimal(id) != key {
          ParseIntToDecimal(id);
        }
      }
      None
    case Some(id) =>
      if id in table && IntToDecimal(id) == key then Some(table[id])
      else
        assert forall other :: IntToDecimal(other) == key ==> other == id by {
          forall other | IntToDecimal(other) == key ensures other == id {
            ParseIntToDecimal(other);
          }
        }
        None
  }

  predicate AllKeysParse(keys: seq<string>) {
    forall i :: 0 <= i < |keys| ==> ParseInt(keys[i]).Some?
  }

  /** Some product the query fetches has no entry under its own `str(id)`. */
  predicate MissesCanonicalKey(c: Cart, table: map<int, Product>) {
    exists i :: 0 <= i < |c.keys| && ParseInt(c.keys[i]).Some? && ParseInt(c.keys[i]).value in table
                && IntToDecimal(ParseInt(c.keys[i]).value) !in c.counts
  }

  /**
   `Cart.__iter__`: fetch the products whose ids the keys name, attach each to
   the entry under its `str(id)`, then yield every entry in insertion order.
   */
  function Iterate(c: Cart, table: map<int, Product>): (r: Result<seq<Line>, JoinError>)
    requires Valid(c) && TableValid(table)
    ensures r == Err(KeyNotANumber) <==> !AllKeysParse(c.keys)
    ensures r == Err(KeyNotCanonical) <==> AllKeysParse(c.keys) && MissesCanonicalKey(c, table)
    ensures r.Ok? ==> |r.value| == |c.keys|
    ensures r.Ok? ==> forall i :: 0 <= i < |c.keys| ==>
                        && r.value[i].key == c.keys[i]
                        && r.value[i].count == c.counts[c.keys[i]]
                        && (r.value[i].product.Some? <==> exists id :: id in table && IntToDecimal(id) == c.keys[i])
                        && (r.value[i].product.Some? ==> IntToDecimal(r.value[i].product.value.id) == c.keys[i]
                                                         && table[r.value[i].product.value.id] == r.value[i].product.value)
  {
    if !AllKeysParse(c.keys) then Err(KeyNotANumber)
    else if MissesCanonicalKey(c, table) then Err(KeyNotCanonical)
    else Ok(seq(|c.keys|, i requires 0 <= i < |c.keys| => Line(c.keys[i], Lookup(table, c.keys[i]), c.counts[c.keys[i]])))
  }

  /** A cart filled through the API holds only `str` forms of ids, so iteration cannot raise. */
  lemma IterateCanonicalKeys(c: Cart, table: map<int, Product>)
    requires Valid(c) && TableValid(table)
    requires forall i :: 0 <= i < |c.keys| ==> exists id :: IntToDecimal(id) == c.keys[i]
    ensures Iterate(c, table).Ok?
  {
    forall i | 0 <= i < |c.keys|
      ensures ParseInt(c.keys[i]).Some? && IntToDecimal(ParseInt(c.keys[i]).value) == c.keys[i]
    {
      var id :| IntToDecimal(id) == c.keys[i];
      ParseIntToDecimal(id);
    }
  }

  /** Every line carries a product. */
  predicate AllAttached(lines: seq<Line>) {
    forall i :: 0 <= i < |lines| ==> lines[i].product.Some?
  }

  /**
   `Cart.get_total_price` over the entries after iteration: the sum of price
   times count. `None` stands for the `KeyError` of an entry without a product.
   */
  function TotalPrice(lines: seq<Line>): (r: Option<Cents>)
    ensures r.Some? <==> AllAttached(lines)
  {
    if |lines| == 0 then Some(0)
    else
      match lines[0].product
      case None => None
      case Some(p) =>
        match TotalPrice(lines[1..])
        case None => None
        case Some(rest) => Some(p.price * lines[0].count + rest)
  }

  /** The amount owed for attached lines, summed from the last line back. */
  function Amount(lines: seq<Line>): Cents
    requires AllAttached(lines)
  {
    if |lines| == 0 then 0
    else Amount(lines[..|lines| - 1]) + lines[|lines| - 1].product.value.price * lines[|lines| - 1].count
  }

  /** The backward sum also splits off the first line. */
  lemma {:induction false} AmountFirst(lines: seq<Line>)
    requires |lines| > 0 && AllAttached(lines)
    ensures Amount(lines) == lines[0].product.value.price * lines[0].count + Amount(lines[1..])
  {
    if |lines| > 1 {
      var init := lines[..|lines| - 1];
      AmountFirst(init);
      assert init[1..] == lines[1..][..|lines[1..]| - 1];
      assert init[0] == lines[0];
      assert lines[1..][|lines[1..]| - 1] == lines[|lines| - 1];
    } else {
      assert lines[..0] == [];
      assert lines[1..] == [];
    }
  }

  /** For every cart whose lines all carry a product, the total is the sum of price times count, negative counts included. */
  lemma {:induction false} TotalPriceIsAmount(lines: seq<Line>)
    requires AllAttached(lines)
    ensures TotalPrice(lines) == Some(Amount(lines))
  {
    if |lines| > 0 {
      TotalPriceIsAmount(lines[1..]);
      AmountFirst(lines);
    }
  }

  /** Two lines cost their two price-times-count amounts together. */
  lemma TotalPriceOfTwo(a: Line, b: Line)
    requires a.product.Some? && b.product.Some?
    ensures TotalPrice([a, b]) == Some(a.product.value.price * a.count + b.product.value.price * b.count)
  {
    assert [a, b][1..] == [b];
    assert [b][1..] == [];
    assert TotalPrice([b]) == Some(b.product.value.price * b.count + 0);
  }
}

=== FILE: catalog.dfy ===
/**
 The product table and the catalog list endpoint's query pipeline
 (`CatalogAPIView.filter_by_category`, `apply_filters` and the limited-edition
 list in shopapp/views.py). A queryset is a `seq<Product>` in database order.
 */
module Catalog {
  import opened Results
  import opened Numerals
  import opened Pagination

  /** Money in cents: the source's `DecimalField(decimal_places=2)` values times 100. */
  type Cents = int

  /**
   A product row. `rating` is in tenths (one decimal place) and `date` is an
   abstract timestamp. `limitedEdition` is the flag the limited list filters on.
   */
  datatype Product = Product(
    id: int,
    category: int,
    price: Cents,
    count: nat,
    date: int,
    title: string,
    description: Option<string>,
    freeDelivery: bool,
    rating: int,
    available: bool,
    limitedEdition: bool)

  /** The product table keyed by primary key: every row sits under its own id. */
  ghost predicate TableValid(table: map<int, Product>) {
    forall id :: id in table ==> table[id].id == id
  }

  /** Numeric product fields the catalog can be sorted on. */
  datatype SortField = ByPrice | ByRating | ByDate | ByCount | ById | ByCategory

  /** A price bound as sent: absent, a decimal amount, or text that is not a decimal. */
  datatype PriceParam = NoPrice | Price(cents: Cents) | MalformedPrice

  /** The catalog query parameters the view reads, each `None` when not sent. */
  datatype Query = Query(
    category: Option<string>,
    subcategory: Option<string>,
    name: Option<string>,
    minPrice: PriceParam,
    maxPrice: PriceParam,
    freeDelivery: Option<string>,
    available: Option<string>,
    sort: Option<SortField>,
    sortType: Option<string>)

  /** Errors the ORM raises while building the query; the response is a 500. */
  datatype QueryError = IdNotANumber | PriceNotADecimal

  /** Python truthiness of a query parameter: present and non-empty. */
  predicate Truthy(s: Option<string>) {
    s.Some? && |s.value| > 0
  }

  /** `queryset.filter(...)`: the rows satisfying `keep`, in their original order. */
  function Filter(ps: seq<Product>, keep: Product -> bool): (r: seq<Product>)
    ensures |r| <= |ps|
    ensures forall p :: p in r <==> p in ps && keep(p)
    ensures multiset(r) <= multiset(ps)
    ensures forall i :: 0 <= i < |r| ==> keep(r[i])
  {
    if |ps| == 0 then []
    else
      var rest := Filter(ps[1..], keep);
      assert ps == [ps[0]] + ps[1..];
      if keep(ps[0]) then [ps[0]] + rest else rest
  }

  /** Filtering twice is filtering once by both conditions. */
  lemma {:induction false} FilterTwice(ps: seq<Product>, f: Product -> bool, g: Product -> bool, both: Product -> bool)
    requires forall p :: both(p) == (f(p) && g(p))
    ensures Filter(Filter(ps, f), g) == Filter(ps, both)
  {
    if |ps| > 0 {
      FilterTwice(ps[1..], f, g, both);
    }
  }

  /** Filtering by a condition every row meets keeps the queryset as it is. */
  lemma {:induction false} FilterAll(ps: seq<Product>, keep: Product -> bool)
    requires forall i :: 0 <= i < |ps| ==> keep(ps[i])
    ensures Filter(ps, keep) == ps
  {
    if |ps| > 0 {
      FilterAll(ps[1..], keep);
      assert ps == [ps[0]] + ps[1..];
    }
  }

  /** `category__subcategories=sid`: the product's category lists that subcategory. */
  predicate InSubcategory(subcategories: map<int, set<int>>, p: Product, sid: int) {
    p.category in subcategories && sid in subcategories[p.category]
  }

  /**
   `filter_by_category`: a subcategory parameter, when truthy, wins over a
   category parameter; an id that is not an integer makes the ORM raise.
   */
  function FilterByCategory(ps: seq<Product>, subcategories: map<int, set<int>>, q: Query)
    : (r: Result<seq<Product>, QueryError>)
    ensures r.Ok? ==> multiset(r.value) <= multiset(ps)
    ensures Truthy(q.subcategory) ==>
              match ParseInt(q.subcategory.value)
              case None => r == Err(IdNotANumber)
              case Some(sid) => r.Ok? && forall p :: p in r.value <==> p in ps && InSubcategory(subcategories, p, sid)
    ensures !Truthy(q.subcategory) && Truthy(q.category) ==>
              match ParseInt(q.category.value)
              case None => r == Err(IdNotANumber)
              case Some(cid) => r.Ok? && forall p :: p in r.value <==> p in ps && p.category == cid
    ensures !Truthy(q.subcategory) && !Truthy(q.category) ==> r == Ok(ps)
  {
    if Truthy(q.subcategory) then
      match ParseInt(q.subcategory.value)
      case None => Err(IdNotANumber)
      case Some(sid) => Ok(Filter(ps, (p: Product) => InSubcategory(subcategories, p, sid)))
    else if Truthy(q.category) then
      match ParseInt(q.category.value)
      case None => Err(IdNotANumber)
      case Some(cid) => Ok(Filter(ps, (p: Product) => p.category == cid))
    else Ok(ps)
  }

  /** The subcategory parameter decides alone whenever it is truthy. */
  lemma SubcategoryOverridesCategory(ps: seq<Product>, subcategories: map<int, set<int>>, q: Query, other: Option<string>)
    requires Truthy(q.subcategory)
    ensures FilterByCategory(ps, subcategories, q) == FilterByCategory(ps, subcategories, q.(category := other))
  {
  }

  /** The title filter; see README for case folding. */
  predicate TitleContains(title: string, name: string) {
    exists i :: 0 <= i <= |title| - |name| && OccursAt(title, name, i)
  }

  predicate OccursAt(title: string, name: string, i: nat)
    requires i + |name| <= |title|
  {
    title[i..i + |name|] == name
  }

  predicate AtLeast(p: Product, bound: PriceParam) {
    bound.Price? ==> p.price >= bound.cents
  }

  predicate AtMost(p: Product, bound: PriceParam) {
    bound.Price? ==> p.price <= bound.cents
  }

  /** A boolean filter is switched on only by the exact text "true". */
  predicate SwitchedOn(flag: Option<string>) {
    flag == Some("true")
  }

  /** Whether a product passes every filter of `apply_filters` the query switches on. */
  predicate Matches(q: Query, p: Product) {
    && (Truthy(q.name) ==> TitleContains(p.title, q.name.value))
    && AtLeast(p, q.minPrice)
    && AtMost(p, q.maxPrice)
    && (SwitchedOn(q.freeDelivery) ==> p.freeDelivery)
    && (SwitchedOn(q.available) ==> p.available)
  }

  function SortKey(p: Product, field: SortField): int {
    match field
    case ByPrice => p.price
    case ByRating => p.rating
    case ByDate => p.date
    case ByCount => p.count
    case ById => p.id
    case ByCategory => p.category
  }

  predicate InOrder(a: int, b: int, descending: bool) {
    if descending then a >= b else a <= b
  }

  /** `order_by(field)` or `order_by("-field")` holds of the sequence. */
  predicate Ordered(ps: seq<Product>, field: SortField, descending: bool) {
    forall i, j :: 0 <= i < j < |ps| ==> InOrder(SortKey(ps[i], field), SortKey(ps[j], field), descending)
  }

  function Insert(x: Product, ps: seq<Product>, field: SortField, descending: bool): (r: seq<Product>)
    requires Ordered(ps, field, descending)
    ensures Ordered(r, field, descending)
    ensures multiset(r) == multiset(ps) + multiset{x}
  {
    if |ps| == 0 then [x]
    else if InOrder(SortKey(x, field), SortKey(ps[0], field), descending) then
      ConsOrdered(x, ps, field, descending);
      [x] + ps
    else
      var rest := Insert(x, ps[1..], field, descending);
      HeadPrecedes(x, ps, rest, field, descending);
      assert |rest| > 0 && rest[0] in rest;
      ConsOrdered(ps[0], rest, field, descending);
      assert ps == [ps[0]] + ps[1..];
      [ps[0]] + rest
  }

  /** A row that comes before the first row of an ordered sequence can be put in front of it. */
  lemma ConsOrdered(h: Product, rest: seq<Product>, field: SortField, descending: bool)
    requires Ordered(rest, field, descending)
    requires |rest| > 0 ==> InOrder(SortKey(h, field), SortKey(rest[0], field), descending)
    ensures Ordered([h] + rest, field, descending)
  {
    var r := [h] + rest;
    forall i, j | 0 <= i < j < |r|
      ensures InOrder(SortKey(r[i], field), SortKey(r[j], field), descending)
    {
      assert r[j] == rest[j - 1];
      if i > 0 {
        assert r[i] == rest[i - 1];
      }
    }
  }

  /** When the new row goes after the head, the head still precedes everything inserted behind it. */
  lemma HeadPrecedes(x: Product, ps: seq<Product>, rest: seq<Product>, field: SortField, descending: bool)
    requires |ps| > 0 && Ordered(ps, field, descending)
    requires !InOrder(SortKey(x, field), SortKey(ps[0], field), descending)
    requires multiset(rest) == multiset(ps[1..]) + multiset{x}
    ensures forall y :: y in rest ==> InOrder(SortKey(ps[0], field), SortKey(y, field), descending)
  {
    forall y | y in rest
      ensures InOrder(SortKey(ps[0], field), SortKey(y, field), descending)
    {
      assert y in multiset(rest);
      if y != x {
        assert y in multiset(ps[1..]);
        var k :| 0 <= k < |ps[1..]| && ps[1..][k] == y;
        assert ps[k + 1] == y;
      }
    }
  }

  /**
   The database's `order_by`: the same rows, ordered by the field. Rows with
   equal keys keep their relative order here; the database leaves ties unspecified.
   */
  function SortBy(ps: seq<Product>, field: SortField, descending: bool): (r: seq<Product>)
    ensures Ordered(r, field, descending)
    ensures multiset(r) == multiset(ps)
  {
    if |ps| == 0 then []
    else
      assert ps == [ps[0]] + ps[1..];
      Insert(ps[0], SortBy(ps[1..], field, descending), field, descending)
  }

  /** Pointwise-equal conditions filter alike. */
  lemma {:induction false} FilterSameCondition(ps: seq<Product>, f: Product -> bool, g: Product -> bool)
    requires forall p :: f(p) == g(p)
    ensures Filter(ps, f) == Filter(ps, g)
  {
    if |ps| > 0 {
      FilterSameCondition(ps[1..], f, g);
    }
  }

  /** One optional filter step: applied only when its parameter switches it on. */
  function Narrow(ps: seq<Product>, on: bool, keep: Product -> bool): seq<Product> {
    if on then Filter(ps, keep) else ps
  }

  /** An optional step after a filter is one filter by the conjunction. */
  lemma NarrowFiltered(ps: seq<Product>, prev: Product -> bool, on: bool, keep: Product -> bool, next: Product -> bool)
    requires forall p :: next(p) == (prev(p) && (on ==> keep(p)))
    ensures Narrow(Filter(ps, prev), on, keep) == Filter(ps, next)
  {
    if on {
      FilterTwice(ps, prev, keep, next);
    } else {
      FilterSameCondition(ps, prev, next);
    }
  }

  /** The conditions of `apply_filters` switched on so far, in the order the view applies them. */
  predicate UpToName(q: Query, p: Product) {
    Truthy(q.name) ==> TitleContains(p.title, q.name.value)
  }

  predicate UpToMin(q: Query, p: Product) {
    UpToName(q, p) && AtLeast(p, q.minPrice)
  }

  predicate UpToMax(q: Query, p: Product) {
    UpToMin(q, p) && AtMost(p, q.maxPrice)
  }

  predicate UpToDelivery(q: Query, p: Product) {
    UpToMax(q, p) && (SwitchedOn(q.freeDelivery) ==> p.freeDelivery)
  }

  /** The five filter steps of `apply_filters`, before any sort. */
  function FilterSteps(ps: seq<Product>, q: Query): seq<Product> {
    var byName := Narrow(ps, Truthy(q.name), (p: Product) => UpToName(q, p));
    var byMin := Narrow(byName, q.minPrice.Price?, (p: Product) => AtLeast(p, q.minPrice));
    var byMax := Narrow(byMin, q.maxPrice.Price?, (p: Product) => AtMost(p, q.maxPrice));
    var byDelivery := Narrow(byMax, SwitchedOn(q.freeDelivery), (p: Product) => p.freeDelivery);
    Narrow(byDelivery, SwitchedOn(q.available), (p: Product) => p.available)
  }

  /** The filter steps together keep, in database order, exactly the matching products. */
  lemma FilterStepsMeaning(ps: seq<Product>, q: Query)
    ensures FilterSteps(ps, q) == Filter(ps, (p: Product) => Matches(q, p))
  {
    FilterAll(ps, (p: Product) => true);
    NarrowFiltered(ps, (p: Product) => true, Truthy(q.name), (p: Product) => UpToName(q, p),
                   (p: Product) => UpToName(q, p));
    NarrowFiltered(ps, (p: Product) => UpToName(q, p), q.minPrice.Price?, (p: Product) => AtLeast(p, q.minPrice),
                   (p: Product) => UpToMin(q, p));
    NarrowFiltered(ps, (p: Product) => UpToMin(q, p), q.maxPrice.Price?, (p: Product) => AtMost(p, q.maxPrice),
                   (p: Product) => UpToMax(q, p));
    NarrowFiltered(ps, (p: Product) => UpToMax(q, p), SwitchedOn(q.freeDelivery), (p: Product) => p.freeDelivery,
                   (p: Product) => UpToDelivery(q, p));
    NarrowFiltered(ps, (p: Product) => UpToDelivery(q, p), SwitchedOn(q.available), (p: Product) => p.available,
                   (p: Product) => Matches(q, p));
  }

  /** `apply_filters`: title, price bounds, flags, then the optional sort. */
  function ApplyFilters(ps: seq<Product>, q: Query): (r: Result<seq<Product>, QueryError>)
  {
    if q.minPrice.MalformedPrice? || q.maxPrice.MalformedPrice? then Err(PriceNotADecimal)
    else
      var filtered := FilterSteps(ps, q);
      Ok(if q.sort.Some? then SortBy(filtered, q.sort.value, q.sortType == Some("dec")) else filtered)
  }

  /**
   The filters together keep exactly the products that match every switched-on
   condition; without a sort the database order is kept, and with one the same
   rows come out ordered, descending exactly when `sortType` is "dec".
   */
  lemma ApplyFiltersMeaning(ps: seq<Product>, q: Query)
    ensures ApplyFilters(ps, q).Ok? <==> !q.minPrice.MalformedPrice? && !q.maxPrice.MalformedPrice?
    ensures ApplyFilters(ps, q).Ok? && q.sort.None? ==> ApplyFilters(ps, q).value == Filter(ps, (p: Product) => Matches(q, p))
    ensures ApplyFilters(ps, q).Ok? && q.sort.Some? ==>
              && multiset(ApplyFilters(ps, q).value) == multiset(Filter(ps, (p: Product) => Matches(q, p)))
              && Ordered(ApplyFilters(ps, q).value, q.sort.value, q.sortType == Some("dec"))
  {
    FilterStepsMeaning(ps, q);
  }

  /** Every filter step only narrows: what comes out was in the queryset and matches. */
  lemma ApplyFiltersNarrows(ps: seq<Product>, q: Query)
    requires ApplyFilters(ps, q).Ok?
    ensures multiset(ApplyFilters(ps, q).value) <= multiset(ps)
    ensures forall p :: p in ApplyFilters(ps, q).value <==> p in ps && Matches(q, p)
  {
    ApplyFiltersMeaning(ps, q);
    var matched := Filter(ps, (p: Product) => Matches(q, p));
    assert forall p :: p in ApplyFilters(ps, q).value <==> p in multiset(ApplyFilters(ps, q).value);
    assert forall p :: p in matched <==> p in multiset(matched);
  }

  /**
   `get_queryset`: the category step, then the other filters. The rows that
   come out were in the table and match every switched-on filter.
   */
  function CatalogQuery(ps: seq<Product>, subcategories: map<int, set<int>>, q: Query): (r: Result<seq<Product>, QueryError>)
    ensures r.Ok? ==> multiset(r.value) <= multiset(ps)
    ensures r.Ok? ==> forall p :: p in r.value ==> p in ps && Matches(q, p)
    ensures FilterByCategory(ps, subcategories, q).Ok? ==>
              (r.Ok? <==> !q.minPrice.MalformedPrice? && !q.maxPrice.MalformedPrice?)
    ensures FilterByCategory(ps, subcategories, q).Err? ==> r == Err(FilterByCategory(ps, subcategories, q).error)
  {
    match FilterByCategory(ps, subcategories, q)
    case Err(e) => Err(e)
    case Ok(byCategory) =>
      ApplyFiltersMeaning(byCategory, q);
      if ApplyFilters(byCategory, q).Ok? then
        ApplyFiltersNarrows(byCategory, q);
        assert forall p :: p in byCategory ==> p in multiset(byCategory);
        assert forall p :: p in multiset(byCategory) ==> p in multiset(ps);
        ApplyFilters(byCategory, q)
      else ApplyFilters(byCategory, q)
  }

  /** Why a catalog page cannot be served: the query failed, or the page does not exist (a 404). */
  datatype CatalogError = QueryFailed(error: QueryError) | NoSuchPage

  /**
   `CatalogAPIView.list`: the filtered rows, cut into pages of the requested
   size; the page holds matching rows of the table only.
   */
  function CatalogList(ps: seq<Product>, subcategories: map<int, set<int>>, q: Query, limit: Option<string>, page: Option<string>)
    : (r: Result<Page<Product>, CatalogError>)
    ensures r.Ok? ==> |r.value.items| <= PageSize(limit) && 1 <= r.value.currentPage <= r.value.lastPage
    ensures r.Ok? ==> forall p :: p in r.value.items ==> p in ps && Matches(q, p)
    ensures CatalogQuery(ps, subcategories, q).Err? ==> r == Err(QueryFailed(CatalogQuery(ps, subcategories, q).error))
    ensures CatalogQuery(ps, subcategories, q).Ok? && page.None? ==> r.Ok? && r.value.currentPage == 1
    ensures CatalogQuery(ps, subcategories, q).Ok? ==>
              var last := PageCount(|CatalogQuery(ps, subcategories, q).value|, PageSize(limit));
              var n := RequestedPage(page, last);
              (r == Err(NoSuchPage) <==> !(n.Some? && 1 <= n.value <= last))
  {
    match CatalogQuery(ps, subcategories, q)
    case Err(e) => Err(QueryFailed(e))
    case Ok(rows) =>
      match Paginate(rows, PageSize(limit), page)
      case Err(_) => Err(NoSuchPage)
      case Ok(p) => Ok(p)
  }

  /**
   A served catalog page is the requested page of the query's rows: its
   number is the one asked for ("last" or 1 by default), and it holds exactly
   the rows at positions `(n - 1) * size` up to `n * size`.
   */
  lemma CatalogPageServed(ps: seq<Product>, subcategories: map<int, set<int>>, q: Query, limit: Option<string>, page: Option<string>)
    requires CatalogList(ps, subcategories, q, limit, page).Ok?
    ensures CatalogQuery(ps, subcategories, q).Ok?
    ensures Serves(CatalogQuery(ps, subcategories, q).value, PageSize(limit), page, CatalogList(ps, subcategories, q, limit, page).value)
  {
    var rows := CatalogQuery(ps, subcategories, q).value;
    assert Paginate(rows, PageSize(limit), page).Ok?;
    PaginateServes(rows, PageSize(limit), page);
  }

  /** How many products the limited-edition list shows at most. */
  const LimitedListSize: nat := 16

  /** The first `n` elements, or all of them when there are fewer (`qs[:n]`). */
  function Take(ps: seq<Product>, n: nat): (r: seq<Product>)
    ensures |r| == if |ps| <= n then |ps| else n
    ensures r == ps[..|r|]
  {
    if |ps| <= n then ps else ps[..n]
  }

  /** Errors raised by the limited-list query; the response is a 500. */
  datatype FieldError = UnknownField(name: string)

  /**
   `LimitedProductsAPIView.get` as written: it filters on `limited_edition`,
   a field the Product model does not declare, so the ORM refuses the query.
   */
  function LimitedProductsAsWritten(ps: seq<Product>): (r: Result<seq<Product>, FieldError>)
    ensures r.Err?
  {
    Err(UnknownField("limited_edition"))
  }

  /** `filter(limited_edition=True)`. */
  function LimitedOnly(ps: seq<Product>): (r: seq<Product>)
    ensures forall p :: p in r <==> p in ps && p.limitedEdition
  {
    Filter(ps, (p: Product) => p.limitedEdition)
  }

  /** The limited list as intended: the first 16 limited-edition products. */
  function LimitedProducts(ps: seq<Product>): (r: seq<Product>)
    ensures |r| <= LimitedListSize
    ensures forall i :: 0 <= i < |r| ==> r[i].limitedEdition && r[i] in ps
    ensures |r| == if |LimitedOnly(ps)| < LimitedListSize then |LimitedOnly(ps)| else LimitedListSize
    ensures r == LimitedOnly(ps)[..|r|]
  {
    var r := Take(LimitedOnly(ps), LimitedListSize);
    assert forall i :: 0 <= i < |r| ==> r[i] in LimitedOnly(ps);
    r
  }

  /** One limited-edition product: the intended list shows it, the written view fails. */
  lemma LimitedListCounterexample()
    ensures var p := Product(1, 1, 100, 1, 0, "t", None, false, 0, true, true);
            LimitedProductsAsWritten([p]).Err? && LimitedProducts([p]) == [p]
  {
    var p := Product(1, 1, 100, 1, 0, "t", None, false, 0, true, true);
    assert LimitedOnly([p]) == [p];
  }
}

=== FILE: numerals.dfy ===
/**
 The small part of Python's string and integer built-ins the shop relies on:
 `str.isdigit`, `int(...)` on a numeral, `str(...)` of an integer and `str.strip`.
 Only ASCII digits are digits here; see README for what that leaves out.
 */
module Numerals {
  import opened Results

  predicate IsDigit(c: char) {
    '0' <= c <= '9'
  }

  /** Every character is a digit (vacuously true of the empty string). */
  predicate AllDigits(s: string) {
    forall i :: 0 <= i < |s| ==> IsDigit(s[i])
  }

  /** Python's `s.isdigit()`: a non-empty run of digits. */
  predicate IsDigitString(s: string) {
    |s| > 0 && AllDigits(s)
  }

  function DigitValue(c: char): (d: nat)
    requires IsDigit(c)
    ensures d < 10
  {
    (c as int) - ('0' as int)
  }

  function DigitChar(d: nat): (c: char)
    requires d < 10
    ensures IsDigit(c) && DigitValue(c) == d
  {
    (('0' as int) + d) as char
  }

  /** The number a digit string denotes in base 10, as `int(s)` computes it. */
  function Value(s: string): nat
    requires AllDigits(s)
  {
    if |s| == 0 then 0 else 10 * Value(s[..|s| - 1]) + DigitValue(s[|s| - 1])
  }

  /** `str(n)` for a non-negative integer: the shortest base-10 numeral. */
  function NatToDecimal(n: nat): (r: string)
    ensures IsDigitString(r)
    ensures Value(r) == n
    ensures |r| > 1 ==> r[0] != '0'
  {
    if n < 10 then [DigitChar(n)]
    else
      var prefix := NatToDecimal(n / 10);
      var r := prefix + [DigitChar(n % 10)];
      assert r[..|r| - 1] == prefix;
      r
  }

  /** `str(n)` for any integer: a minus sign in front of negatives. */
  function IntToDecimal(n: int): (r: string)
    ensures |r| > 0
  {
    if n < 0 then "-" + NatToDecimal(-n) else NatToDecimal(n)
  }

  /**
   `int(s)` on a string: an optional sign followed by at least one digit.
   `None` stands for the `ValueError` Python raises on anything else.
   */
  function ParseInt(s: string): (r: Option<int>)
    ensures r.Some? ==> |s| > 0
    ensures IsDigitString(s) ==> r == Some(Value(s))
  {
    if |s| > 0 && (s[0] == '-' || s[0] == '+') then
      if IsDigitString(s[1..]) then
        var magnitude: int := Value(s[1..]);
        Some(if s[0] == '-' then -magnitude else magnitude)
      else None
    else if IsDigitString(s) then Some(Value(s))
    else None
  }

  /** Reading back what `str` wrote gives the number again. */
  lemma ParseIntToDecimal(n: int)
    ensures ParseInt(IntToDecimal(n)) == Some(n)
  {
    if n < 0 {
      var digits := NatToDecimal(-n);
      assert IntToDecimal(n)[1..] == digits;
    }
  }

  /** Distinct integers have distinct decimal forms, so `str` keys never collide. */
  lemma IntToDecimalInjective(a: int, b: int)
    ensures IntToDecimal(a) == IntToDecimal(b) <==> a == b
  {
    ParseIntToDecimal(a);
    ParseIntToDecimal(b);
  }

  /** The last digit alone decides the remainders modulo 2 and modulo 10. */
  lemma LastDigitDecides(s: string)
    requires IsDigitString(s)
    ensures Value(s) % 10 == DigitValue(s[|s| - 1])
    ensures Value(s) % 2 == DigitValue(s[|s| - 1]) % 2
  {
    var q := Value(s[..|s| - 1]);
    var d := DigitValue(s[|s| - 1]);
    assert Value(s) == 10 * q + d;
    LastDigitMod10(q, d);
    LastDigitMod2(q, d);
  }

  lemma LastDigitMod10(q: nat, d: nat)
    requires d < 10
    ensures (10 * q + d) % 10 == d
  {
  }

  lemma LastDigitMod2(q: nat, d: nat)
    ensures (10 * q + d) % 2 == d % 2
  {
    assert 10 * q + d == 2 * (5 * q) + d;
  }

  /** The characters Python's `str.strip()` removes, up to U+00FF. */
  predicate IsSpace(c: char) {
    (9 <= c as int <= 13) || (28 <= c as int <= 32) || c as int == 0x85 || c as int == 0xA0
  }

  /** `s.lstrip()`: the suffix left after dropping leading whitespace. */
  function TrimStart(s: string): (r: string)
    ensures |r| <= |s| && r == s[|s| - |r|..]
    ensures forall i :: 0 <= i < |s| - |r| ==> IsSpace(s[i])
    ensures |r| > 0 ==> !IsSpace(r[0])
  {
    if |s| > 0 && IsSpace(s[0]) then TrimStart(s[1..]) else s
  }

  /** `s.rstrip()`: the prefix left after dropping trailing whitespace. */
  function TrimEnd(s: string): (r: string)
    ensures |r| <= |s| && r == s[..|r|]
    ensures forall i :: |r| <= i < |s| ==> IsSpace(s[i])
    ensures |r| > 0 ==> !IsSpace(r[|r| - 1])
  {
    if |s| > 0 && IsSpace(s[|s| - 1]) then TrimEnd(s[..|s| - 1]) else s
  }

  /** `s.strip()`. */
  function Strip(s: string): (r: string)
    ensures |r| <= |s|
    ensures |r| > 0 ==> !IsSpace(r[0]) && !IsSpace(r[|r| - 1])
  {
    TrimEnd(TrimStart(s))
  }

  /** A string without whitespace at either end is its own `strip()`. */
  lemma StripKeepsTrimmed(s: string)
    requires |s| > 0 ==> !IsSpace(s[0]) && !IsSpace(s[|s| - 1])
    ensures Strip(s) == s
  {
  }

  /** One space on each side of a trimmed string is exactly what `strip()` removes. */
  lemma StripPadding(s: string)
    requires |s| > 0 ==> !IsSpace(s[0]) && !IsSpace(s[|s| - 1])
    ensures Strip(" " + s + " ") == s
  {
    var padded := " " + s + " ";
    assert padded[1..] == s + " ";
    assert TrimStart(padded) == TrimStart(s + " ");
    if |s| > 0 {
      assert (s + " ")[0] == s[0];
      assert TrimStart(s + " ") == s + " ";
    } else {
      assert TrimStart(" ") == TrimStart(" "[1..]);
      assert " "[1..] == "";
    }
    if |s| > 0 {
      assert (s + " ")[..|s|] == s;
      assert TrimEnd(s + " ") == TrimEnd(s);
      StripKeepsTrimmed(s);
      assert TrimStart(s) == s;
    }
  }

  /** Digits are not whitespace, so a digit string survives `strip()` unchanged. */
  lemma StripKeepsDigits(s: string)
    requires AllDigits(s)
    ensures Strip(s) == s
  {
    StripKeepsTrimmed(s);
  }
}

=== FILE: order_models.dfy ===
/**
 The order records of orderapp/models.py: the status and choice enumerations,
 `Order` with its snapshot line items, `Payment`, and the pricing rule
 (`calculate_delivery_cost`, `calculate_total_cost_without_delivery`,
 `calculate_total_cost`). Amounts are integer cents.
 */
module OrderModels {
  import opened Results
  import opened Catalog

  /** `DELIVERY_CHOICES`. */
  datatype DeliveryType = Ordinary | Express

  /** `PAYMENT_CHOICES`. */
  datatype PaymentType = Online | Someone

  /** `STATUS_CHOICES` of an order. */
  datatype OrderStatus = Pending | Accepted | Confirmed | Error

  /** The status choices of a payment. */
  datatype PaymentStatus = PaymentPending | PaymentConfirmed | PaymentError

  /** The stored text of each choice. */
  function DeliveryCode(d: DeliveryType): string {
    match d
    case Ordinary => "ordinary"
    case Express => "express"
  }

  function PaymentCode(p: PaymentType): string {
    match p
    case Online => "online"
    case Someone => "someone"
  }

  function StatusCode(s: OrderStatus): string {
    match s
    case Pending => "pending"
    case Accepted => "accepted"
    case Confirmed => "confirmed"
    case Error => "error"
  }

  function PaymentStatusCode(s: PaymentStatus): string {
    match s
    case PaymentPending => "pending"
    case PaymentConfirmed => "confirmed"
    case PaymentError => "error"
  }

  /** An `OrderItem`: the product, the price captured when the order was made, and the quantity. */
  datatype OrderItem = OrderItem(product: int, price: Cents, count: nat)

  /**
   An `Order` row with its items. `deliveryType` and `paymentType` are nullable
   columns; `totalCost` is the stored (nullable) total.
   */
  datatype Order = Order(
    id: int,
    profile: int,
    deliveryType: Option<DeliveryType>,
    paymentType: Option<PaymentType>,
    status: OrderStatus,
    city: Option<string>,
    address: Option<string>,
    totalCost: Option<Cents>,
    items: seq<OrderItem>)

  /** `Order.objects.create(profile=...)`: every column at its default. */
  function NewOrder(id: int, profile: int): (o: Order)
    ensures o.id == id && o.profile == profile
    ensures o.status == Pending
    ensures o.deliveryType == Some(Ordinary) && o.paymentType == Some(Online)
    ensures o.items == [] && o.totalCost.None?
  {
    Order(id, profile, Some(Ordinary), Some(Online), Pending, None, None, None, [])
  }

  /** A `Payment` row; `order` is a one-to-one key to its order. */
  datatype Payment = Payment(
    order: int,
    number: string,
    name: string,
    month: string,
    year: string,
    code: string,
    status: PaymentStatus,
    errorMessage: Option<string>)

  /** The column widths of `Payment`. */
  predicate PaymentFieldsFit(p: Payment) {
    |p.number| <= 16 && |p.name| <= 255 && |p.month| <= 2 && |p.year| <= 4 && |p.code| <= 3
  }

  /** The ordinary delivery fee (200.00). */
  const OrdinaryFee: Cents := 20000
  /** The subtotal from which ordinary delivery is free (2000.00). */
  const FreeDeliveryFrom: Cents := 200000
  /** The express delivery fee (500.00). */
  const ExpressFee: Cents := 50000

  /** `calculate_total_cost_without_delivery`: the sum of price times count. */
  function Subtotal(items: seq<OrderItem>): Cents {
    if |items| == 0 then 0 else items[0].price * items[0].count + Subtotal(items[1..])
  }

  lemma {:induction false} SubtotalAppend(items: seq<OrderItem>, more: seq<OrderItem>)
    ensures Subtotal(items + more) == Subtotal(items) + Subtotal(more)
  {
    if |items| > 0 {
      assert (items + more)[0] == items[0];
      assert (items + more)[1..] == items[1..] + more;
      SubtotalAppend(items[1..], more);
    } else {
      assert items + more == more;
    }
  }

  /** With prices and counts that are not negative, the subtotal is not negative either. */
  lemma {:induction false} SubtotalNonNegative(items: seq<OrderItem>)
    requires forall i :: 0 <= i < |items| ==> items[i].price >= 0
    ensures Subtotal(items) >= 0
  {
    if |items| > 0 {
      SubtotalNonNegative(items[1..]);
    }
  }

  /**
   `calculate_delivery_cost`: ordinary delivery is charged below the threshold
   and free from it on; express is a flat fee; no delivery type costs nothing.
   */
  function DeliveryCost(delivery: Option<DeliveryType>, subtotal: Cents): (fee: Cents)
    ensures 0 <= fee <= ExpressFee
    ensures delivery == Some(Ordinary) ==> (fee == OrdinaryFee <==> subtotal < FreeDeliveryFrom)
    ensures delivery == Some(Ordinary) ==> (fee == 0 <==> subtotal >= FreeDeliveryFrom)
    ensures delivery == Some(Express) ==> fee == ExpressFee
    ensures delivery.None? ==> fee == 0
  {
    match delivery
    case Some(Ordinary) => if subtotal < FreeDeliveryFrom then OrdinaryFee else 0
    case Some(Express) => ExpressFee
    case None => 0
  }

  /** `calculate_total_cost`: the subtotal plus the delivery fee it implies. */
  function TotalCost(o: Order): Cents {
    var subtotal := Subtotal(o.items);
    subtotal + DeliveryCost(o.deliveryType, subtotal)
  }

  /** The total never falls below the subtotal and exceeds it by at most the express fee. */
  lemma TotalCostBounds(o: Order)
    ensures Subtotal(o.items) <= TotalCost(o) <= Subtotal(o.items) + ExpressFee
    ensures TotalCost(o) - Subtotal(o.items) == DeliveryCost(o.deliveryType, Subtotal(o.items))
  {
  }

  /** A subtotal of exactly 2000.00 ships free; one cent less pays the fee. */
  lemma ThresholdIsInclusive(o: Order)
    requires o.deliveryType == Some(Ordinary)
    ensures Subtotal(o.items) == FreeDeliveryFrom ==> TotalCost(o) == FreeDeliveryFrom
    ensures Subtotal(o.items) == FreeDeliveryFrom - 1 ==> TotalCost(o) == FreeDeliveryFrom - 1 + OrdinaryFee
  {
  }

  /** Items 500.00 x 2 and 800.00 x 1: 2000.00 with ordinary delivery, 2300.00 with express. */
  lemma WorkedExample(o: Order)
    requires o.items == [OrderItem(1, 50000, 2), OrderItem(2, 80000, 1)]
    ensures Subtotal(o.items) == 180000
    ensures o.deliveryType == Some(Ordinary) ==> TotalCost(o) == 200000
    ensures o.deliveryType == Some(Express) ==> TotalCost(o) == 230000
  {
    assert o.items[1..] == [OrderItem(2, 80000, 1)];
    assert o.items[1..][1..] == [];
    assert Subtotal(o.items[1..]) == 80000 + Subtotal([]);
    assert Subtotal(o.items) == 50000 * 2 + Subtotal(o.items[1..]);
  }
}

=== FILE: order_serializers.dfy ===
/**
 orderapp/serializers.py: `PaymentSerializer` with its `validate_number`, the
 writable choice and text fields of `OrderSerializer` under a partial update,
 and its representation, whose `totalCost` is always recomputed.

 A serializer field runs in a fixed order: a missing or null value is handled
 first; a text field then trims surrounding whitespace and refuses a blank
 value; then its validators run (maximum length, no null characters), and only
 then the serializer's own `validate_<field>` method.
 */
module OrderSerializers {
  import opened Results
  import opened Numerals
  import opened Catalog
  import opened OrderModels

  /** One field of a request body: absent, JSON null, or a text value. */
  datatype Field = Absent | Null | Given(text: string)

  /** The error messages a field can carry. */
  datatype Message =
    | Required
    | NotNull
    | Blank
    | TooLong(limit: nat)
    | NullCharacter
    | NotDigits
    | NumberTooLong
    | NotEven
    | NotAChoice(text: string)

  /** The errors of a whole request, by field name. */
  type Errors = map<string, seq<Message>>

  const NullChar: char := 0 as char

  /** The longest card number the serializer accepts. */
  const NumberLength: nat := 8

  /** A digit string whose value is even: its last digit is. */
  predicate EvenDigits(s: string) {
    IsDigitString(s) && s[|s| - 1] in "02468"
  }

  /**
   `validate_number`: all digits, then at most 8 of them, then even; the first
   check that fails decides the message, and an accepted value comes back as it was.
   */
  function ValidateNumber(value: string): (r: Result<string, Message>)
    ensures r.Ok? <==> EvenDigits(value) && |value| <= NumberLength
    ensures r.Ok? ==> r.value == value
    ensures !IsDigitString(value) ==> r == Err(NotDigits)
    ensures r == Err(NumberTooLong) <==> IsDigitString(value) && |value| > NumberLength
    ensures r == Err(NotEven) <==> IsDigitString(value) && |value| <= NumberLength && !EvenDigits(value)
  {
    if !IsDigitString(value) then Err(NotDigits)
    else if |value| > NumberLength then Err(NumberTooLong)
    else
      LastDigitDecides(value);
      if Value(value) % 2 != 0 then Err(NotEven)
      else Ok(value)
  }

  /** The empty string is refused, and for not being all digits. */
  lemma EmptyNumberNotDigits()
    ensures ValidateNumber("") == Err(NotDigits)
  {
  }

  /** What `validate_number` accepts it accepts again. */
  lemma ValidateNumberIdempotent(value: string)
    requires ValidateNumber(value).Ok?
    ensures ValidateNumber(ValidateNumber(value).value) == ValidateNumber(value)
  {
  }

  /** The value of an accepted number is even, and so is every number with an even last digit. */
  lemma AcceptedNumberIsEven(value: string)
    requires ValidateNumber(value).Ok?
    ensures Value(value) % 2 == 0
  {
    LastDigitDecides(value);
  }

  /**
   A required text field of at most `maxLength` characters, neither blank nor
   null: the value is trimmed, then both validators run and report together.
   */
  function RequiredText(f: Field, maxLength: nat): (r: Result<string, seq<Message>>)
    ensures f.Absent? ==> r == Err([Required])
    ensures f.Null? ==> r == Err([NotNull])
    ensures f.Given? && Strip(f.text) == "" ==> r == Err([Blank])
    ensures r.Ok? <==> f.Given? && Strip(f.text) != "" && |Strip(f.text)| <= maxLength && NullChar !in Strip(f.text)
    ensures r.Ok? ==> r.value == Strip(f.text) && |r.value| <= maxLength
    ensures r.Err? ==> r.error != []
    ensures r.Err? ==> forall m :: m in r.error ==> m in {Required, NotNull, Blank, TooLong(maxLength), NullCharacter}
  {
    match f
    case Absent => Err([Required])
    case Null => Err([NotNull])
    case Given(text) =>
      var value := Strip(text);
      if value == "" then Err([Blank])
      else
        var errors := (if |value| > maxLength then [TooLong(maxLength)] else [])
                      + (if NullChar in value then [NullCharacter] else []);
        if errors == [] then Ok(value) else Err(errors)
  }

  /** The `number` field: `CharField(max_length=8)`, then `validate_number`. */
  function NumberField(f: Field): (r: Result<string, seq<Message>>)
    ensures r.Ok? ==> EvenDigits(r.value) && |r.value| <= NumberLength
    ensures r.Ok? <==> f.Given? && EvenDigits(Strip(f.text)) && |Strip(f.text)| <= NumberLength
    ensures r.Ok? ==> r.value == Strip(f.text)
  {
    match RequiredText(f, NumberLength)
    case Err(errors) => Err(errors)
    case Ok(value) =>
      match ValidateNumber(value)
      case Err(message) => Err([message])
      case Ok(number) => Ok(number)
  }

  /**
   The field's own `max_length` runs first, so the length check of
   `validate_number` never decides: no request produces its message.
   */
  lemma NumberTooLongUnreachable(f: Field)
    ensures NumberField(f) != Err([NumberTooLong])
  {
    match RequiredText(f, NumberLength)
    case Err(errors) =>
      assert NumberTooLong !in errors;
    case Ok(value) =>
      assert ValidateNumber(value) != Err(NumberTooLong);
  }

  /** Surrounding whitespace is trimmed before the digits are checked: a padded number is accepted bare. */
  lemma PaddedNumberAccepted(digits: string)
    requires ValidateNumber(digits).Ok?
    ensures NumberField(Given(" " + digits + " ")) == Ok(digits)
  {
    assert !IsSpace(digits[0]) && !IsSpace(digits[|digits| - 1]);
    StripPadding(digits);
    assert Strip(" " + digits + " ") == digits;
    assert NullChar !in digits;
    assert RequiredText(Given(" " + digits + " "), NumberLength) == Ok(digits);
  }

  /** A payment request: the five card fields. */
  datatype PaymentRequest = PaymentRequest(number: Field, name: Field, month: Field, year: Field, code: Field)

  /** The validated card fields. */
  datatype CardData = CardData(number: string, name: string, month: string, year: string, code: string)

  /** The errors of one field under its name, or none. */
  function FieldErrors<T>(name: string, r: Result<T, seq<Message>>): (errors: Errors)
    ensures name in errors <==> r.Err?
    ensures errors.Keys <= {name}
  {
    match r
    case Ok(_) => map[]
    case Err(messages) => map[name := messages]
  }

  /**
   `PaymentSerializer.is_valid`: `number` as above, the other fields required
   text of the model's widths (255, 2, 4 and 3). Every failing field reports.
   */
  function ValidatePayment(req: PaymentRequest): (r: Result<CardData, Errors>)
    ensures r.Ok? <==> && NumberField(req.number).Ok? && RequiredText(req.name, 255).Ok?
                       && RequiredText(req.month, 2).Ok? && RequiredText(req.year, 4).Ok?
                       && RequiredText(req.code, 3).Ok?
    ensures r.Ok? ==> && EvenDigits(r.value.number) && |r.value.number| <= NumberLength
                      && |r.value.name| <= 255 && |r.value.month| <= 2
                      && |r.value.year| <= 4 && |r.value.code| <= 3
    ensures r.Err? ==> && r.error != map[]
                       && ("number" in r.error <==> NumberField(req.number).Err?)
                       && ("name" in r.error <==> RequiredText(req.name, 255).Err?)
                       && ("month" in r.error <==> RequiredText(req.month, 2).Err?)
                       && ("year" in r.error <==> RequiredText(req.year, 4).Err?)
                       && ("code" in r.error <==> RequiredText(req.code, 3).Err?)
  {
    var number := NumberField(req.number);
    var name := RequiredText(req.name, 255);
    var month := RequiredText(req.month, 2);
    var year := RequiredText(req.year, 4);
    var code := RequiredText(req.code, 3);
    if number.Ok? && name.Ok? && month.Ok? && year.Ok? && code.Ok? then
      Ok(CardData(number.value, name.value, month.value, year.value, code.value))
    else
      Err(PaymentErrors(number, name, month, year, code))
  }

  /** The errors of a payment request: exactly the failing fields, each under its name. */
  function PaymentErrors(number: Result<string, seq<Message>>, name: Result<string, seq<Message>>,
                         month: Result<string, seq<Message>>, year: Result<string, seq<Message>>,
                         code: Result<string, seq<Message>>): (errors: Errors)
    ensures "number" in errors <==> number.Err?
    ensures "name" in errors <==> name.Err?
    ensures "month" in errors <==> month.Err?
    ensures "year" in errors <==> year.Err?
    ensures "code" in errors <==> code.Err?
    ensures errors.Keys <= {"number", "name", "month", "year", "code"}
  {
    FieldErrors("number", number) + FieldErrors("name", name) + FieldErrors("month", month)
    + FieldErrors("year", year) + FieldErrors("code", code)
  }

  /** A partial update of one field: left as it is, or set to a value. */
  datatype Change<T> = Keep | Set(value: T)

  function Apply<T>(change: Change<T>, current: T): T {
    match change
    case Keep => current
    case Set(v) => v
  }

  /** The choice a stored text names, if it names one. */
  function ParseDelivery(s: string): (r: Option<DeliveryType>)
    ensures forall d :: r == Some(d) <==> DeliveryCode(d) == s
  {
    if s == "ordinary" then Some(Ordinary) else if s == "express" then Some(Express) else None
  }

  function ParsePayment(s: string): (r: Option<PaymentType>)
    ensures forall p :: r == Some(p) <==> PaymentCode(p) == s
  {
    if s == "online" then Some(Online) else if s == "someone" then Some(Someone) else None
  }

  function ParseStatus(s: string): (r: Option<OrderStatus>)
    ensures forall st :: r == Some(st) <==> StatusCode(st) == s
  {
    if s == "pending" then Some(Pending)
    else if s == "accepted" then Some(Accepted)
    else if s == "confirmed" then Some(Confirmed)
    else if s == "error" then Some(Error)
    else None
  }

  /** Each choice is read back from its own code. */
  lemma ChoicesRoundTrip(d: DeliveryType, p: PaymentType, st: OrderStatus)
    ensures ParseDelivery(DeliveryCode(d)) == Some(d)
    ensures ParsePayment(PaymentCode(p)) == Some(p)
    ensures ParseStatus(StatusCode(st)) == Some(st)
  {
  }

  /**
   A nullable choice field under a partial update: absent keeps the value,
   null clears it, a text must be one of the codes (the empty text is not).
   */
  function ChoiceField<T>(f: Field, parsed: Option<T>): (r: Result<Change<Option<T>>, seq<Message>>)
    ensures f.Absent? <==> r == Ok(Keep)
    ensures f.Null? <==> r == Ok(Set(None))
    ensures f.Given? ==> (r.Err? <==> parsed.None?)
    ensures f.Given? && parsed.Some? ==> r == Ok(Set(parsed))
    ensures r.Err? ==> r.error == [NotAChoice(f.text)]
  {
    match f
    case Absent => Ok(Keep)
    case Null => Ok(Set(None))
    case Given(text) => if parsed.None? then Err([NotAChoice(text)]) else Ok(Set(parsed))
  }

  function Parsed<T>(f: Field, parse: string -> Option<T>): Option<T> {
    if f.Given? then parse(f.text) else None
  }

  /**
   An optional, nullable text field that may be blank: a blank text is stored
   as the empty string, any other is trimmed and must hold no null character.
   */
  function OptionalText(f: Field): (r: Result<Change<Option<string>>, seq<Message>>)
    ensures f.Absent? <==> r == Ok(Keep)
    ensures f.Null? <==> r == Ok(Set(None))
    ensures f.Given? ==> (r.Ok? <==> NullChar !in Strip(f.text))
    ensures f.Given? && r.Ok? ==> r == Ok(Set(Some(Strip(f.text))))
  {
    match f
    case Absent => Ok(Keep)
    case Null => Ok(Set(None))
    case Given(text) =>
      var value := Strip(text);
      if value == "" then Ok(Set(Some("")))
      else if NullChar in value then Err([NullCharacter])
      else Ok(Set(Some(value)))
  }

  /**
   The value a nullable field holds once a partial update that sent `f` is
   saved: absent keeps `before`, null clears it, a text stores `sent`.
   */
  predicate Merged<T(==)>(f: Field, before: Option<T>, sent: Option<T>, after: Option<T>) {
    match f
    case Absent => after == before
    case Null => after == None
    case Given(_) => after == sent
  }

  /** The trimmed text a field sent, if it sent one. */
  function SentText(f: Field): Option<string> {
    if f.Given? then Some(Strip(f.text)) else None
  }

  /** The writable fields of an order update request. */
  datatype OrderUpdate = OrderUpdate(deliveryType: Field, paymentType: Field, status: Field, city: Field, address: Field)

  /** The validated changes of an order update. */
  datatype OrderChanges = OrderChanges(
    deliveryType: Change<Option<DeliveryType>>,
    paymentType: Change<Option<PaymentType>>,
    status: Change<Option<OrderStatus>>,
    city: Change<Option<string>>,
    address: Change<Option<string>>)

  /** Every field of an update passes its own validation. */
  predicate UpdateValid(u: OrderUpdate) {
    && (u.deliveryType.Given? ==> ParseDelivery(u.deliveryType.text).Some?)
    && (u.paymentType.Given? ==> ParsePayment(u.paymentType.text).Some?)
    && (u.status.Given? ==> ParseStatus(u.status.text).Some?)
    && (u.city.Given? ==> NullChar !in Strip(u.city.text))
    && (u.address.Given? ==> NullChar !in Strip(u.address.text))
  }

  /**
   The changes a valid update makes: an absent field is kept, a null one is
   cleared, a choice is set to the one its code names and a text to its
   trimmed value.
   */
  function ValidChanges(u: OrderUpdate): (ch: OrderChanges)
    requires UpdateValid(u)
    ensures && (ch.deliveryType.Keep? <==> u.deliveryType.Absent?)
            && (u.deliveryType.Null? ==> ch.deliveryType == Set(None))
            && (u.deliveryType.Given? ==> ch.deliveryType == Set(ParseDelivery(u.deliveryType.text)))
    ensures && (ch.paymentType.Keep? <==> u.paymentType.Absent?)
            && (u.paymentType.Null? ==> ch.paymentType == Set(None))
            && (u.paymentType.Given? ==> ch.paymentType == Set(ParsePayment(u.paymentType.text)))
    ensures && (ch.status.Keep? <==> u.status.Absent?)
            && (ch.status == Set(None) <==> u.status.Null?)
            && (u.status.Given? ==> ch.status == Set(ParseStatus(u.status.text)))
    ensures && (ch.city.Keep? <==> u.city.Absent?)
            && (u.city.Null? ==> ch.city == Set(None))
            && (u.city.Given? ==> ch.city == Set(Some(Strip(u.city.text))))
    ensures && (ch.address.Keep? <==> u.address.Absent?)
            && (u.address.Null? ==> ch.address == Set(None))
            && (u.address.Given? ==> ch.address == Set(Some(Strip(u.address.text))))
  {
    OrderChanges(
      ChoiceField(u.deliveryType, Parsed(u.deliveryType, ParseDelivery)).value,
      ChoiceField(u.paymentType, Parsed(u.paymentType, ParsePayment)).value,
      ChoiceField(u.status, Parsed(u.status, ParseStatus)).value,
      OptionalText(u.city).value,
      OptionalText(u.address).value)
  }

  /** `OrderSerializer(order, data, partial=True).is_valid()`. */
  function ValidateOrderUpdate(u: OrderUpdate): (r: Result<OrderChanges, Errors>)
    ensures r.Ok? <==> && (u.deliveryType.Given? ==> ParseDelivery(u.deliveryType.text).Some?)
                       && (u.paymentType.Given? ==> ParsePayment(u.paymentType.text).Some?)
                       && (u.status.Given? ==> ParseStatus(u.status.text).Some?)
                       && (u.city.Given? ==> NullChar !in Strip(u.city.text))
                       && (u.address.Given? ==> NullChar !in Strip(u.address.text))
    ensures r.Ok? ==> && (r.value.deliveryType.Set? && r.value.deliveryType.value.Some? ==>
                            u.deliveryType == Given(DeliveryCode(r.value.deliveryType.value.value)))
                      && (r.value.paymentType.Set? && r.value.paymentType.value.Some? ==>
                            u.paymentType == Given(PaymentCode(r.value.paymentType.value.value)))
                      && (r.value.status.Set? && r.value.status.value.Some? ==>
                            u.status == Given(StatusCode(r.value.status.value.value)))
    ensures r.Ok? ==> && (r.value.deliveryType.Keep? <==> u.deliveryType.Absent?)
                      && (r.value.paymentType.Keep? <==> u.paymentType.Absent?)
                      && (r.value.status.Keep? <==> u.status.Absent?)
                      && (r.value.status == Set(None) <==> u.status.Null?)
    ensures r.Ok? ==> && (u.deliveryType.Null? ==> r.value.deliveryType == Set(None))
                      && (u.deliveryType.Given? ==> r.value.deliveryType == Set(ParseDelivery(u.deliveryType.text)))
                      && (u.paymentType.Null? ==> r.value.paymentType == Set(None))
                      && (u.paymentType.Given? ==> r.value.paymentType == Set(ParsePayment(u.paymentType.text)))
                      && (u.status.Given? ==> r.value.status == Set(ParseStatus(u.status.text)))
    ensures r.Ok? ==> && (r.value.city.Keep? <==> u.city.Absent?)
                      && (u.city.Null? ==> r.value.city == Set(None))
                      && (u.city.Given? ==> r.value.city == Set(Some(Strip(u.city.text))))
                      && (r.value.address.Keep? <==> u.address.Absent?)
                      && (u.address.Null? ==> r.value.address == Set(None))
                      && (u.address.Given? ==> r.value.address == Set(Some(Strip(u.address.text))))
    ensures r.Err? ==> r.error != map[]
  {
    if UpdateValid(u) then Ok(ValidChanges(u))
    else
      var delivery := ChoiceField(u.deliveryType, Parsed(u.deliveryType, ParseDelivery));
      var payment := ChoiceField(u.paymentType, Parsed(u.paymentType, ParsePayment));
      var status := ChoiceField(u.status, Parsed(u.status, ParseStatus));
      var city := OptionalText(u.city);
      var address := OptionalText(u.address);
      Err(FieldErrors("deliveryType", delivery) + FieldErrors("paymentType", payment) + FieldErrors("status", status)
            + FieldErrors("city", city) + FieldErrors("address", address))
  }

  /** `serializer.save()` on an update: the changed columns take their new values. */
  function ApplyChanges(o: Order, ch: OrderChanges): (r: Order)
    requires ch.status != Set(None)
    ensures r.id == o.id && r.profile == o.profile && r.items == o.items && r.totalCost == o.totalCost
    ensures ch.deliveryType.Keep? ==> r.deliveryType == o.deliveryType
    ensures ch.paymentType.Keep? ==> r.paymentType == o.paymentType
    ensures ch.status.Keep? ==> r.status == o.status
    ensures ch.deliveryType.Set? ==> r.deliveryType == ch.deliveryType.value
    ensures ch.paymentType.Set? ==> r.paymentType == ch.paymentType.value
    ensures ch.status.Set? ==> r.status == ch.status.value.value
    ensures ch.city.Keep? ==> r.city == o.city
    ensures ch.city.Set? ==> r.city == ch.city.value
    ensures ch.address.Keep? ==> r.address == o.address
    ensures ch.address.Set? ==> r.address == ch.address.value
  {
    o.(deliveryType := Apply(ch.deliveryType, o.deliveryType),
       paymentType := Apply(ch.paymentType, o.paymentType),
       status := match ch.status case Keep => o.status case Set(s) => s.value,
       city := Apply(ch.city, o.city),
       address := Apply(ch.address, o.address))
  }

  /** The order as the API renders it (the profile's contact fields and product details aside). */
  datatype OrderView = OrderView(
    id: int,
    deliveryType: Option<string>,
    paymentType: Option<string>,
    totalCost: Cents,
    status: string,
    city: Option<string>,
    address: Option<string>,
    products: seq<OrderItem>)

  function CodeOf<T>(value: Option<T>, code: T -> string): Option<string> {
    match value
    case None => None
    case Some(v) => Some(code(v))
  }

  /** `OrderSerializer.to_representation`: the choices as their codes and `totalCost` recomputed. */
  function Represent(o: Order): (v: OrderView)
    ensures v.id == o.id && v.products == o.items
    ensures Subtotal(o.items) <= v.totalCost <= Subtotal(o.items) + ExpressFee
    ensures v.totalCost == TotalCost(o)
    ensures v.status == StatusCode(o.status)
    ensures v.deliveryType.Some? <==> o.deliveryType.Some?
    ensures o.deliveryType.Some? ==> ParseDelivery(v.deliveryType.value) == o.deliveryType
    ensures v.paymentType.Some? <==> o.paymentType.Some?
    ensures o.paymentType.Some? ==> ParsePayment(v.paymentType.value) == o.paymentType
    ensures ParseStatus(v.status) == Some(o.status)
    ensures v.city == o.city && v.address == o.address
  {
    TotalCostBounds(o);
    ChoicesRoundTrip(if o.deliveryType.Some? then o.deliveryType.value else Ordinary,
                     if o.paymentType.Some? then o.paymentType.value else Online, o.status);
    OrderView(o.id, CodeOf(o.deliveryType, DeliveryCode), CodeOf(o.paymentType, PaymentCode),
              TotalCost(o), StatusCode(o.status), o.city, o.address, o.items)
  }

  /** The stored total plays no part in what is rendered. */
  lemma RepresentIgnoresStoredTotal(o: Order, stored: Option<Cents>)
    ensures Represent(o.(totalCost := stored)) == Represent(o)
  {
  }
}

=== FILE: order_views.dfy ===
/**
 The checkout flow of orderapp/views.py as transitions over an explicit shop
 state: creating an order from the session cart, submitting the checkout form,
 paying by card, paying through someone else's account, and polling the
 payment's progress. The database rows and the session become the fields of
 `Shop`; the signed-in user is the id of their profile.
 */
module OrderViews {
  import opened Results
  import opened Numerals
  import opened Catalog
  import opened SessionCart
  import opened OrderModels
  import opened OrderSerializers

  /** The catalog, the session cart, the order and payment tables, and the next order id. */
  datatype Shop = Shop(
    table: map<int, Product>,
    cart: Cart,
    orders: map<int, Order>,
    payments: map<int, Payment>,
    nextId: int)

  /**
   Each order sits under its own id, below the next id to hand out; each
   payment belongs to an existing order, one per order, within its column widths.
   */
  ghost predicate ShopValid(s: Shop) {
    && TableValid(s.table)
    && Valid(s.cart)
    && (forall id :: id in s.orders ==> s.orders[id].id == id && id < s.nextId)
    && (forall id :: id in s.payments ==> id in s.orders && s.payments[id].order == id && PaymentFieldsFit(s.payments[id]))
  }

  /** The JSON body of a response. */
  datatype Body =
    | NoBody
    | OrderCreated(orderId: int)
    | Redirect(orderId: int, url: string)
    | Invalid(errors: Errors)
    | ErrorText(text: string)
    | MessageText(text: string)
    | Account(number: string)
    | Progress(orderId: int, status: string, errorMessage: Option<string>)
    | StatusText(text: string)

  datatype Response = Response(code: int, body: Body)

  /** `Http404` from a lookup that finds no order of this user. */
  const NotFound := Response(404, NoBody)
  /** An uncaught exception. */
  const ServerError := Response(500, NoBody)

  const AlreadyPaid := "Payment already exists for this order"
  const InvalidCard := "Invalid card number"
  const PaymentFailed := "Payment error"
  const AwaitingConfirmation := "Awaiting payment confirmation from the payment system"
  const NoPayment := "No payment found"

  /** The order exists and belongs to the user. */
  predicate Owns(s: Shop, user: int, id: int) {
    id in s.orders && s.orders[id].profile == user
  }

  // ---------------------------------------------------------------------
  // OrdersAPIView.post
  // ---------------------------------------------------------------------

  /** An entry can become an `OrderItem`: it has its product and a count the unsigned column accepts. */
  predicate Storable(l: Line) {
    l.product.Some? && l.count >= 0
  }

  function ItemOf(l: Line): (item: OrderItem)
    requires Storable(l)
    ensures item.product == l.product.value.id && item.price == l.product.value.price && item.count == l.count
  {
    OrderItem(l.product.value.id, l.product.value.price, l.count)
  }

  /** The items created before the loop stops, and whether it ran to the end. */
  datatype Snapshot = Snapshot(items: seq<OrderItem>, complete: bool)

  /**
   The loop over the cart: one `OrderItem` per entry, in cart order, at the
   product's current price. It stops at the first entry with no product (a
   `KeyError`) or a negative count (the column's check constraint); what was
   created before stays.
   */
  function Snap(lines: seq<Line>): (r: Snapshot)
    ensures |r.items| <= |lines|
    ensures r.complete <==> forall i :: 0 <= i < |lines| ==> Storable(lines[i])
    ensures r.complete ==> |r.items| == |lines|
    ensures !r.complete ==> |r.items| < |lines| && !Storable(lines[|r.items|])
    ensures forall i :: 0 <= i < |r.items| ==> Storable(lines[i]) && r.items[i] == ItemOf(lines[i])
  {
    if |lines| == 0 then Snapshot([], true)
    else if !Storable(lines[0]) then Snapshot([], false)
    else
      var rest := Snap(lines[1..]);
      Snapshot([ItemOf(lines[0])] + rest.items, rest.complete)
  }

  /** A complete snapshot costs what the cart's total price says. */
  lemma {:induction false} SnapKeepsTotal(lines: seq<Line>)
    requires Snap(lines).complete
    ensures TotalPrice(lines) == Some(Subtotal(Snap(lines).items))
  {
    if |lines| > 0 {
      var rest := Snap(lines[1..]);
      SnapKeepsTotal(lines[1..]);
      assert Snap(lines).items == [ItemOf(lines[0])] + rest.items;
      assert ([ItemOf(lines[0])] + rest.items)[1..] == rest.items;
    }
  }

  /** The order row and the items the loop created, before the cart is touched. */
  function PlaceOrder(s: Shop, user: int): (r: (Shop, bool))
    requires ShopValid(s)
    ensures ShopValid(r.0)
    ensures r.0.cart == s.cart && r.0.table == s.table && r.0.payments == s.payments
    ensures s.nextId !in s.orders && r.0.orders.Keys == s.orders.Keys + {s.nextId}
    ensures forall id :: id in s.orders ==> r.0.orders[id] == s.orders[id]
    ensures r.0.orders[s.nextId] == NewOrder(s.nextId, user).(items := r.0.orders[s.nextId].items)
    ensures r.1 <==> Iterate(s.cart, s.table).Ok? && Snap(Iterate(s.cart, s.table).value).complete
    ensures r.1 ==> r.0.orders[s.nextId].items == Snap(Iterate(s.cart, s.table).value).items
    ensures r.0.orders[s.nextId].items ==
              if Iterate(s.cart, s.table).Ok? then Snap(Iterate(s.cart, s.table).value).items else []
  {
    var id := s.nextId;
    var snap := match Iterate(s.cart, s.table)
                case Err(_) => Snapshot([], false)
                case Ok(lines) => Snap(lines);
    var order := NewOrder(id, user).(items := snap.items);
    assert id !in s.orders;
    StoreKeepsValid(s, order);
    (s.(orders := s.orders[id := order], nextId := id + 1), snap.complete)
  }

  /** Storing an order under the next id, and moving the next id on, keeps the shop valid. */
  lemma StoreKeepsValid(s: Shop, o: Order)
    requires ShopValid(s) && o.id == s.nextId
    ensures ShopValid(s.(orders := s.orders[s.nextId := o], nextId := s.nextId + 1))
  {
  }

  /** A complete snapshot of the cart: one item per entry, at the catalog's price, with the entry's count. */
  lemma CompleteSnapshot(s: Shop)
    requires ShopValid(s)
    requires Iterate(s.cart, s.table).Ok? && Snap(Iterate(s.cart, s.table).value).complete
    ensures var items := Snap(Iterate(s.cart, s.table).value).items;
            && |items| == |s.cart.keys|
            && (forall i :: 0 <= i < |items| ==>
                  && items[i].product in s.table
                  && IntToDecimal(items[i].product) == s.cart.keys[i]
                  && items[i].price == s.table[items[i].product].price
                  && items[i].count == s.cart.counts[s.cart.keys[i]])
            && TotalPrice(Iterate(s.cart, s.table).value) == Some(Subtotal(items))
  {
    var lines := Iterate(s.cart, s.table).value;
    var items := Snap(lines).items;
    SnapKeepsTotal(lines);
    forall i | 0 <= i < |items|
      ensures && items[i].product in s.table
              && IntToDecimal(items[i].product) == s.cart.keys[i]
              && items[i].price == s.table[items[i].product].price
              && items[i].count == s.cart.counts[s.cart.keys[i]]
    {
      assert Storable(lines[i]) && items[i] == ItemOf(lines[i]);
      var p := lines[i].product.value;
      assert IntToDecimal(p.id) == s.cart.keys[i] && p.id in s.table && s.table[p.id] == p;
    }
  }

  /**
   `OrdersAPIView.post` as written: the order and its items are stored, then
   `cart.clear()` is called on a cart class that defines no such method. The
   request always fails, and the cart keeps its entries for the next attempt.
   */
  function CreateOrderAsWritten(s: Shop, user: int): (r: (Shop, Response))
    requires ShopValid(s)
    ensures ShopValid(r.0)
    ensures r.1 == ServerError
    ensures r.0.cart == s.cart
    ensures r.0.orders.Keys == s.orders.Keys + {s.nextId}
    ensures forall id :: id in s.orders ==> r.0.orders[id] == s.orders[id]
    ensures r.0.orders[s.nextId].items ==
              if Iterate(s.cart, s.table).Ok? then Snap(Iterate(s.cart, s.table).value).items else []
  {
    (PlaceOrder(s, user).0, ServerError)
  }

  /**
   `OrdersAPIView.post` with the cart emptied: a new pending order of the user
   holding one item per cart entry at the catalog price, and a 201 with its id.
   */
  function CreateOrder(s: Shop, user: int): (r: (Shop, Response))
    requires ShopValid(s)
    ensures ShopValid(r.0)
    ensures s.nextId !in s.orders && r.0.orders.Keys == s.orders.Keys + {s.nextId}
    ensures forall id :: id in s.orders ==> r.0.orders[id] == s.orders[id]
    ensures r.0.payments == s.payments && r.0.table == s.table
    ensures var o := r.0.orders[s.nextId];
            && o.profile == user && o.status == Pending && o.totalCost.None?
            && o.deliveryType == Some(Ordinary) && o.paymentType == Some(Online)
    ensures r.1.code == 201 <==> Iterate(s.cart, s.table).Ok?
                                 && forall i :: 0 <= i < |s.cart.keys| ==> Storable(Iterate(s.cart, s.table).value[i])
    ensures r.1.code != 201 ==> r.1 == ServerError && r.0.cart == s.cart
    ensures r.1.code != 201 ==>
              r.0.orders[s.nextId].items
              == if Iterate(s.cart, s.table).Ok? then Snap(Iterate(s.cart, s.table).value).items else []
    ensures r.1.code == 201 ==>
              var items := r.0.orders[s.nextId].items;
              && r.1.body == OrderCreated(s.nextId)
              && r.0.cart.counts == map[] && Len(r.0.cart) == 0
              && |items| == |s.cart.keys|
              && (forall i :: 0 <= i < |items| ==>
                    && items[i].product in s.table
                    && IntToDecimal(items[i].product) == s.cart.keys[i]
                    && items[i].price == s.table[items[i].product].price
                    && items[i].count == s.cart.counts[s.cart.keys[i]])
              && TotalPrice(Iterate(s.cart, s.table).value) == Some(Subtotal(items))
  {
    var (placed, complete) := PlaceOrder(s, user);
    if complete then
      CompleteSnapshot(s);
      (placed.(cart := Empty), Response(201, OrderCreated(s.nextId)))
    else (placed, ServerError)
  }

  /** The two versions store the same rows; only the cart and the response differ. */
  lemma CreateOrderAsWrittenDiffers(s: Shop, user: int)
    requires ShopValid(s)
    ensures CreateOrderAsWritten(s, user).0 == CreateOrder(s, user).0.(cart := s.cart)
    ensures CreateOrder(s, user).1.code == 201 ==> CreateOrderAsWritten(s, user).1.code == 500
  {
  }

  /**
   A cart holding one unit of product 5: the corrected view answers 201 and
   empties the cart, the code as written answers 500 and keeps it.
   */
  lemma CreateOrderCounterexample(p: Product, user: int)
    requires p.id == 5 && p.price >= 0
    ensures var s := Shop(map[5 := p], Cart(["5"], map["5" := 1]), map[], map[], 1);
            && CreateOrder(s, user).1 == Response(201, OrderCreated(1))
            && CreateOrder(s, user).0.cart == Empty
            && CreateOrderAsWritten(s, user).1 == ServerError
            && CreateOrderAsWritten(s, user).0.cart.counts == map["5" := 1]
  {
    var s := Shop(map[5 := p], Cart(["5"], map["5" := 1]), map[], map[], 1);
    assert IntToDecimal(5) == "5";
    IterateCanonicalKeys(s.cart, s.table);
    var lines := Iterate(s.cart, s.table).value;
    assert lines[0].product.Some? by {
      assert 5 in s.table && IntToDecimal(5) == s.cart.keys[0];
    }
    assert Storable(lines[0]);
  }

  // ---------------------------------------------------------------------
  // OrderDetailAPIView.post
  // ---------------------------------------------------------------------

  /** The order as checkout saves it: the request merged in, the total recomputed, the status `accepted`. */
  function CheckedOut(o: Order, u: OrderUpdate): (r: Order)
    requires ValidateOrderUpdate(u).Ok? && !u.status.Null?
    ensures r.id == o.id && r.profile == o.profile && r.items == o.items
    ensures r.status == Accepted
    ensures r.totalCost == Some(Subtotal(r.items) + DeliveryCost(r.deliveryType, Subtotal(r.items)))
    ensures u.deliveryType.Given? ==> r.deliveryType.Some? && u.deliveryType.text == DeliveryCode(r.deliveryType.value)
    ensures u.paymentType.Given? ==> r.paymentType.Some? && u.paymentType.text == PaymentCode(r.paymentType.value)
    ensures Merged(u.deliveryType, o.deliveryType, Parsed(u.deliveryType, ParseDelivery), r.deliveryType)
    ensures Merged(u.paymentType, o.paymentType, Parsed(u.paymentType, ParsePayment), r.paymentType)
    ensures Merged(u.city, o.city, SentText(u.city), r.city)
    ensures Merged(u.address, o.address, SentText(u.address), r.address)
  {
    var updated := ApplyChanges(o, ValidateOrderUpdate(u).value);
    updated.(totalCost := Some(TotalCost(updated)), status := Accepted)
  }

  /**
   `OrderDetailAPIView.post`: a partial update of the user's order. On valid
   data the order is saved, its total recomputed and its status set to
   `accepted`; an order paid through someone else is answered with a redirect
   to that payment page. A null status passes the serializer but not the
   column's NOT NULL constraint.
   */
  function SubmitCheckout(s: Shop, user: int, id: int, u: OrderUpdate): (r: (Shop, Response))
    requires ShopValid(s)
    ensures ShopValid(r.0)
    ensures r.1 == NotFound <==> !Owns(s, user, id)
    ensures r.1.code == 400 <==> Owns(s, user, id) && ValidateOrderUpdate(u).Err?
    ensures r.1.code == 400 ==> r.1.body == Invalid(ValidateOrderUpdate(u).error)
    ensures r.1 == ServerError <==> Owns(s, user, id) && ValidateOrderUpdate(u).Ok? && u.status.Null?
    ensures r.1.code !in {200, 201} ==> r.0 == s
    ensures r.1.code in {200, 201} ==>
              && Owns(s, user, id) && id in r.0.orders
              && r.0 == s.(orders := s.orders[id := r.0.orders[id]])
              && var o := r.0.orders[id];
                 && o.status == Accepted
                 && o.items == s.orders[id].items && o.profile == user
                 && o.totalCost == Some(Subtotal(o.items) + DeliveryCost(o.deliveryType, Subtotal(o.items)))
                 && (u.deliveryType.Absent? ==> o.deliveryType == s.orders[id].deliveryType)
                 && (u.deliveryType.Given? ==> o.deliveryType.Some? && u.deliveryType.text == DeliveryCode(o.deliveryType.value))
                 && o == CheckedOut(s.orders[id], u)
    ensures r.1.code == 200 <==> r.1.code in {200, 201} && r.0.orders[id].paymentType == Some(Someone)
    ensures r.1.code == 200 ==> r.1.body == Redirect(id, "payment-someone")
    ensures r.1.code == 201 ==> r.1.body == OrderCreated(id)
  {
    if !Owns(s, user, id) then (s, NotFound)
    else
      match ValidateOrderUpdate(u)
      case Err(errors) => (s, Response(400, Invalid(errors)))
      case Ok(changes) =>
        if changes.status == Set(None) then (s, ServerError)
        else
          var saved := CheckedOut(s.orders[id], u);
          var next := s.(orders := s.orders[id := saved]);
          if saved.paymentType == Some(Someone) then (next, Response(200, Redirect(id, "payment-someone")))
          else (next, Response(201, OrderCreated(id)))
  }

  /**
   A successful checkout stores what the request sent: each field it names
   is set (a null clears it), each field it leaves out keeps the order's value,
   and the redirect is answered exactly when the resulting payment type is
   `someone`.
   */
  lemma CheckoutStoresRequest(s: Shop, user: int, id: int, u: OrderUpdate)
    requires ShopValid(s)
    requires SubmitCheckout(s, user, id, u).1.code in {200, 201}
    ensures var before := s.orders[id];
            var after := SubmitCheckout(s, user, id, u).0.orders[id];
            && Merged(u.deliveryType, before.deliveryType, Parsed(u.deliveryType, ParseDelivery), after.deliveryType)
            && Merged(u.paymentType, before.paymentType, Parsed(u.paymentType, ParsePayment), after.paymentType)
            && Merged(u.city, before.city, SentText(u.city), after.city)
            && Merged(u.address, before.address, SentText(u.address), after.address)
            && (u.paymentType.Given? ==> after.paymentType.Some? && u.paymentType.text == PaymentCode(after.paymentType.value))
    ensures SubmitCheckout(s, user, id, u).1.code == 200 <==>
              if u.paymentType.Given? then u.paymentType.text == "someone"
              else u.paymentType.Absent? && s.orders[id].paymentType == Some(Someone)
  {
  }

  /** After a successful checkout the stored total is the one the API renders. */
  lemma CheckoutTotalIsRendered(s: Shop, user: int, id: int, u: OrderUpdate)
    requires ShopValid(s)
    requires SubmitCheckout(s, user, id, u).1.code in {200, 201}
    ensures var o := SubmitCheckout(s, user, id, u).0.orders[id];
            o.totalCost == Some(Represent(o).totalCost)
  {
  }

  // ---------------------------------------------------------------------
  // PaymentAPIView.post (the later of the two definitions)
  // ---------------------------------------------------------------------

  /** The payment row stored for a validated card. */
  function PaymentFor(id: int, card: CardData, status: PaymentStatus, message: Option<string>): (p: Payment)
    requires |card.number| <= NumberLength && |card.name| <= 255 && |card.month| <= 2
             && |card.year| <= 4 && |card.code| <= 3
    ensures PaymentFieldsFit(p) && p.order == id && p.status == status && p.errorMessage == message
  {
    Payment(id, card.number, card.name, card.month, card.year, card.code, status, message)
  }

  /**
   The card checks of an online order with no payment yet: the view repeats the
   serializer's checks, which therefore never fail here, then decides by the
   last digit.
   */
  function Charge(s: Shop, id: int, card: CardData): (r: (Shop, Response))
    requires ShopValid(s) && id in s.orders && id !in s.payments
    requires EvenDigits(card.number) && |card.number| <= NumberLength
    requires |card.name| <= 255 && |card.month| <= 2 && |card.year| <= 4 && |card.code| <= 3
    ensures ShopValid(r.0)
    ensures id in r.0.payments && r.0 == s.(payments := s.payments[id := r.0.payments[id]])
    ensures var p := r.0.payments[id];
            && p.order == id && p.number == card.number && p.name == card.name
            && p.month == card.month && p.year == card.year && p.code == card.code
            && (p.status == PaymentConfirmed <==> card.number[|card.number| - 1] != '0')
            && (p.status == PaymentConfirmed ==> p.errorMessage.None? && r.1 == Response(200, MessageText(AwaitingConfirmation)))
            && (p.status != PaymentConfirmed ==>
                  p.status == PaymentError && p.errorMessage == Some(PaymentFailed) && r.1 == Response(400, ErrorText(PaymentFailed)))
  {
    LastDigitDecides(card.number);
    if |card.number| > NumberLength || !IsDigitString(card.number) || Value(card.number) % 2 != 0 then
      (s, Response(400, ErrorText(InvalidCard)))
    else if Value(card.number) % 10 != 0 then
      (s.(payments := s.payments[id := PaymentFor(id, card, PaymentConfirmed, None)]),
       Response(200, MessageText(AwaitingConfirmation)))
    else
      (s.(payments := s.payments[id := PaymentFor(id, card, PaymentError, Some(PaymentFailed))]),
       Response(400, ErrorText(PaymentFailed)))
  }

  /**
   What `PaymentAPIView.post` does once the card data is valid: only an online
   order is paid, and only once; the payment is then stored and decided by the
   card number. The assignments to the order's status on these paths are never
   saved, so the order table does not change.
   */
  function Settle(s: Shop, id: int, card: CardData): (r: (Shop, Response))
    requires ShopValid(s) && id in s.orders
    requires EvenDigits(card.number) && |card.number| <= NumberLength
    requires |card.name| <= 255 && |card.month| <= 2 && |card.year| <= 4 && |card.code| <= 3
    ensures ShopValid(r.0)
    ensures r.0.orders == s.orders && r.0.cart == s.cart && r.0.table == s.table
    ensures s.orders[id].paymentType != Some(Online) ==> r == (s, Response(400, Invalid(map[])))
    ensures s.orders[id].paymentType == Some(Online) && id in s.payments ==> r == (s, Response(400, ErrorText(AlreadyPaid)))
    ensures r.1.body != ErrorText(InvalidCard)
    ensures r.0.payments != s.payments <==> s.orders[id].paymentType == Some(Online) && id !in s.payments
    ensures r.0.payments != s.payments ==> id in r.0.payments
    ensures r.0.payments != s.payments ==>
              var p := r.0.payments[id];
              && r.0.payments == s.payments[id := p]
              && p.order == id && p.number == card.number && p.name == card.name
              && p.month == card.month && p.year == card.year && p.code == card.code
              && (p.status == PaymentConfirmed <==> card.number[|card.number| - 1] != '0')
              && (p.status == PaymentConfirmed ==> p.errorMessage.None? && r.1 == Response(200, MessageText(AwaitingConfirmation)))
              && (p.status != PaymentConfirmed ==>
                    p.status == PaymentError && p.errorMessage == Some(PaymentFailed) && r.1 == Response(400, ErrorText(PaymentFailed)))
    ensures r.1.code == 200 <==> r.0.payments != s.payments && r.0.payments[id].status == PaymentConfirmed
  {
    if s.orders[id].paymentType != Some(Online) then (s, Response(400, Invalid(map[])))
    else if id in s.payments then (s, Response(400, ErrorText(AlreadyPaid)))
    else
      var charged := Charge(s, id, card);
      assert id in charged.0.payments && id !in s.payments;
      charged
  }

  /**
   `PaymentAPIView.post`: a 404 for an order that is not the user's, the
   serializer's errors for invalid card data, and otherwise `Settle`.
   */
  function Pay(s: Shop, user: int, id: int, req: PaymentRequest): (r: (Shop, Response))
    requires ShopValid(s)
    ensures ShopValid(r.0)
    ensures r.0.orders == s.orders && r.0.cart == s.cart && r.0.table == s.table
    ensures r.1 == NotFound <==> !Owns(s, user, id)
    ensures !Owns(s, user, id) ==> r.0 == s
    ensures Owns(s, user, id) && ValidatePayment(req).Err? ==>
              r == (s, Response(400, Invalid(ValidatePayment(req).error)))
    ensures Owns(s, user, id) && ValidatePayment(req).Ok? ==> r == Settle(s, id, ValidatePayment(req).value)
    ensures r.0.payments != s.payments ==> Owns(s, user, id) && ValidatePayment(req).Ok?
    ensures r.1.body != ErrorText(InvalidCard)
  {
    if !Owns(s, user, id) then (s, NotFound)
    else
      match ValidatePayment(req)
      case Err(errors) => (s, Response(400, Invalid(errors)))
      case Ok(card) => Settle(s, id, card)
  }

  /** A second payment for the same order is refused and changes nothing. */
  lemma PayTwice(s: Shop, user: int, id: int, first: PaymentRequest, second: PaymentRequest)
    requires ShopValid(s) && Owns(s, user, id)
    requires s.orders[id].paymentType == Some(Online) && id !in s.payments
    requires ValidatePayment(first).Ok?
    ensures id in Pay(s, user, id, first).0.payments
    ensures var after := Pay(s, user, id, first).0;
            Pay(after, user, id, second).0 == after && Pay(after, user, id, second).1.code == 400
  {
  }

  // ---------------------------------------------------------------------
  // PaymentSomeoneAPIView.post (the later of the two definitions)
  // ---------------------------------------------------------------------

  /** `''.join(str(random.randint(0, 9)) for _ in range(8))`: eight digits, each chosen freely. */
  method DrawAccountNumber() returns (number: string)
    ensures |number| == 8 && AllDigits(number)
  {
    number := "";
    var i := 0;
    while i < 8
      invariant 0 <= i <= 8 && |number| == i
      invariant AllDigits(number)
    {
      var d :| 0 <= d < 10;
      number := number + [DigitChar(d)];
      i := i + 1;
    }
  }

  /**
   `PaymentSomeoneAPIView.post` as written: the user's order is saved as
   `confirmed`, then the response serializes the order with the serializer of
   the someone-payment model. That model's `number` field is required and an
   order has no such attribute, so rendering raises and the request ends in a
   500, with the new status already stored.
   */
  function PaySomeoneAsWritten(s: Shop, user: int, id: int): (r: (Shop, Response))
    requires ShopValid(s)
    ensures ShopValid(r.0)
    ensures r.1 == NotFound <==> !Owns(s, user, id)
    ensures r.1 == ServerError <==> Owns(s, user, id)
    ensures !Owns(s, user, id) ==> r.0 == s
    ensures r.0.cart == s.cart && r.0.table == s.table && r.0.payments == s.payments && r.0.nextId == s.nextId
    ensures r.0.orders.Keys == s.orders.Keys
    ensures forall other :: other in s.orders && other != id ==> r.0.orders[other] == s.orders[other]
    ensures Owns(s, user, id) ==>
              && r.0.orders[id].status == Confirmed
              && r.0.orders[id] == s.orders[id].(status := r.0.orders[id].status)
  {
    if !Owns(s, user, id) then (s, NotFound)
    else (s.(orders := s.orders[id := s.orders[id].(status := Confirmed)]), ServerError)
  }

  /** A shop with one order of profile 7: paying it through someone else stores `confirmed` yet answers 500. */
  lemma PaySomeoneCounterexample(s: Shop)
    requires s == Shop(map[], Empty, map[1 := NewOrder(1, 7)], map[], 2)
    ensures ShopValid(s)
    ensures var (after, response) := PaySomeoneAsWritten(s, 7, 1);
            response == ServerError && after.orders[1].status == Confirmed && s.orders[1].status == Pending
  {
  }

  /**
   `PaymentSomeoneAPIView.post` as evidently intended: the same stored effect,
   answered with a 200 that carries a fresh eight-digit account number.
   */
  method PaySomeone(s: Shop, user: int, id: int) returns (r: Shop, response: Response)
    requires ShopValid(s)
    ensures ShopValid(r)
    ensures r == PaySomeoneAsWritten(s, user, id).0
    ensures response == NotFound <==> !Owns(s, user, id)
    ensures !Owns(s, user, id) ==> r == s
    ensures Owns(s, user, id) ==>
              && r.orders[id] == s.orders[id].(status := Confirmed)
              && response.code == 200 && response.body.Account?
              && |response.body.number| == 8 && IsDigitString(response.body.number)
  {
    if !Owns(s, user, id) {
      return s, NotFound;
    }
    var number := DrawAccountNumber();
    r := s.(orders := s.orders[id := s.orders[id].(status := Confirmed)]);
    response := Response(200, Account(number));
  }

  // ---------------------------------------------------------------------
  // ProgressPaymentView.get (the later of the two definitions)
  // ---------------------------------------------------------------------

  /** `ProgressPaymentView.get`: the order's payment, its status and error message. */
  function PaymentProgress(s: Shop, user: int, id: int): (r: Response)
    requires ShopValid(s)
    ensures r == NotFound <==> !Owns(s, user, id)
    ensures r == Response(404, StatusText(NoPayment)) <==> Owns(s, user, id) && id !in s.payments
    ensures r.code == 200 <==> Owns(s, user, id) && id in s.payments
    ensures r.code == 200 ==> && r.body.Progress? && r.body.orderId == id
                              && r.body.status == PaymentStatusCode(s.payments[id].status)
                              && r.body.errorMessage == s.payments[id].errorMessage
  {
    if !Owns(s, user, id) then NotFound
    else if id !in s.payments then Response(404, StatusText(NoPayment))
    else
      var p := s.payments[id];
      Response(200, Progress(id, PaymentStatusCode(p.status), p.errorMessage))
  }

  /**
   Polling after a card payment that was stored reports its outcome:
   `confirmed` after a 200, `error` with the message after the 400.
   */
  lemma PayThenProgress(s: Shop, user: int, id: int, req: PaymentRequest)
    requires ShopValid(s) && Owns(s, user, id)
    requires s.orders[id].paymentType == Some(Online) && id !in s.payments
    requires ValidatePayment(req).Ok?
    ensures var (after, response) := Pay(s, user, id, req);
            && (response.code == 200 ==> PaymentProgress(after, user, id) == Response(200, Progress(id, "confirmed", None)))
            && (response.code != 200 ==>
                  PaymentProgress(after, user, id) == Response(200, Progress(id, "error", Some(PaymentFailed))))
  {
    var card := ValidatePayment(req).value;
    assert Pay(s, user, id, req) == Settle(s, id, card);
    SettleThenProgress(s, user, id, card);
  }

  /** The same, one step in: after `Settle` stored a payment, progress reports it. */
  lemma SettleThenProgress(s: Shop, user: int, id: int, card: CardData)
    requires ShopValid(s) && Owns(s, user, id)
    requires EvenDigits(card.number) && |card.number| <= NumberLength
    requires |card.name| <= 255 && |card.month| <= 2 && |card.year| <= 4 && |card.code| <= 3
    requires s.orders[id].paymentType == Some(Online) && id !in s.payments
    ensures var (after, response) := Settle(s, id, card);
            && (response.code == 200 ==> PaymentProgress(after, user, id) == Response(200, Progress(id, "confirmed", None)))
            && (response.code != 200 ==>
                  PaymentProgress(after, user, id) == Response(200, Progress(id, "error", Some(PaymentFailed))))
  {
    var (after, response) := Settle(s, id, card);
    assert Owns(after, user, id) && id in after.payments;
    var p := after.payments[id];
    assert PaymentProgress(after, user, id) == Response(200, Progress(id, PaymentStatusCode(p.status), p.errorMessage));
    if response.code == 200 {
      assert p.status == PaymentConfirmed && p.errorMessage.None?;
    } else {
      assert p.status == PaymentError && p.errorMessage == Some(PaymentFailed);
    }
  }
}

=== FILE: pagination.dfy ===
/**
 `CatalogPagination` in shopapp/views.py: page-number pagination with a
 client-chosen page size, as the pagination base class it extends computes it.
 */
module Pagination {
  import opened Results
  import opened Numerals

  /** `page_size`: used when the client sends no usable `limit`. */
  const DefaultPageSize: nat := 20
  /** `max_page_size`: the cap on a client-chosen `limit`. */
  const MaxPageSize: nat := 1000

  /**
   The page size for a `limit` parameter: a positive integer is taken, capped
   at 1000; anything else (absent, not a number, zero or negative) gives 20.
   */
  function PageSize(limit: Option<string>): (n: nat)
    ensures 1 <= n <= MaxPageSize
    ensures limit.Some? && ParseInt(limit.value).Some? && 1 <= ParseInt(limit.value).value <= MaxPageSize
            ==> n == ParseInt(limit.value).value
    ensures limit.Some? && ParseInt(limit.value).Some? && ParseInt(limit.value).value > MaxPageSize ==> n == MaxPageSize
    ensures limit.None? || ParseInt(limit.value).None? || ParseInt(limit.value).value < 1 ==> n == DefaultPageSize
  {
    match limit
    case None => DefaultPageSize
    case Some(text) =>
      match ParseInt(text)
      case None => DefaultPageSize
      case Some(k) => if k < 1 then DefaultPageSize else if k > MaxPageSize then MaxPageSize else k
  }

  /** The number of pages: at least one, even for an empty list. */
  function PageCount(total: nat, size: nat): (pages: nat)
    requires size > 0
    ensures pages >= 1
  {
    if total == 0 then 1 else (total + size - 1) / size
  }

  /** The pages hold every row, and the last page is not empty unless the list is. */
  lemma PageCountFits(total: nat, size: nat)
    requires size > 0
    ensures total <= PageCount(total, size) * size
    ensures total == 0 || (PageCount(total, size) - 1) * size < total
  {
  }

  lemma MulMonotone(a: int, b: int, c: nat)
    requires a <= b
    ensures a * c <= b * c
  {
    assert b * c - a * c == (b - a) * c;
  }

  /** A valid page number starts inside the list (or the list is empty). */
  lemma PageStartsInside(total: nat, size: nat, n: int)
    requires size > 0 && 1 <= n <= PageCount(total, size)
    ensures (n - 1) * size <= total
    ensures total > 0 ==> (n - 1) * size < total
  {
    PageCountFits(total, size);
    MulMonotone(n - 1, PageCount(total, size) - 1, size);
  }

  /** One page of a list, with the numbers the response reports. */
  datatype Page<T> = Page(items: seq<T>, currentPage: int, lastPage: int)

  /** An invalid page number; the response is a 404. */
  datatype PageError = InvalidPage

  /** The requested page number: 1 by default, the last page for "last". */
  function RequestedPage(page: Option<string>, lastPage: nat): Option<int> {
    match page
    case None => Some(1)
    case Some(text) => if text == "last" then Some(lastPage) else ParseInt(text)
  }

  /** The items of page `n`: positions `(n - 1) * size` up to `n * size`, clipped to the list. */
  function PageItems<T>(all: seq<T>, size: nat, n: int): (items: seq<T>)
    requires size > 0 && 1 <= n && (n - 1) * size <= |all|
    ensures |items| <= size
    ensures forall x :: x in items ==> x in all
  {
    var bottom := (n - 1) * size;
    var top := if bottom + size >= |all| then |all| else bottom + size;
    all[bottom..top]
  }

  /** `paginate_queryset`: the requested page, or an error for a number outside `1..lastPage`. */
  function Paginate<T>(all: seq<T>, size: nat, page: Option<string>): (r: Result<Page<T>, PageError>)
    requires size > 0
    ensures r.Ok? <==> RequestedPage(page, PageCount(|all|, size)).Some?
                       && 1 <= RequestedPage(page, PageCount(|all|, size)).value <= PageCount(|all|, size)
    ensures r.Ok? ==> && r.value.lastPage == PageCount(|all|, size)
                      && 1 <= r.value.currentPage <= r.value.lastPage
                      && |r.value.items| <= size
                      && (forall x :: x in r.value.items ==> x in all)
                      && (r.value.items == [] ==> |all| == 0)
  {
    var last := PageCount(|all|, size);
    match RequestedPage(page, last)
    case None => Err(InvalidPage)
    case Some(n) =>
      if n < 1 || n > last then Err(InvalidPage)
      else
        PageStartsInside(|all|, size, n);
        Ok(Page(PageItems(all, size, n), n, last))
  }

  /** Every element of the list is found on page `i / size + 1`, at position `i % size`. */
  lemma EveryItemOnItsPage<T>(all: seq<T>, size: nat, i: nat)
    requires size > 0 && i < |all|
    ensures var r := Paginate(all, size, Some(IntToDecimal(i / size + 1)));
            && r.Ok? && r.value.currentPage == i / size + 1
            && i % size < |r.value.items| && r.value.items[i % size] == all[i]
  {
    var n := i / size + 1;
    DivisionBound(i, size, |all|, PageCount(|all|, size));
    RequestedNumeral(n, PageCount(|all|, size));
    PageServed(all, size, Some(IntToDecimal(n)), n);
    assert (n - 1) * size + i % size == i by {
      assert n - 1 == i / size;
    }
    PageItemAt(all, size, n, i % size);
  }

  /** A page parameter that names an existing page `n` is served that page. */
  lemma PageServed<T>(all: seq<T>, size: nat, page: Option<string>, n: int)
    requires size > 0 && 1 <= n <= PageCount(|all|, size)
    requires RequestedPage(page, PageCount(|all|, size)) == Some(n)
    ensures (n - 1) * size <= |all|
    ensures Paginate(all, size, page) == Ok(Page(PageItems(all, size, n), n, PageCount(|all|, size)))
  {
    PageStartsInside(|all|, size, n);
  }

  /** `p` is the page that `page` asks for: its number, the last page, and exactly the rows of that page. */
  ghost predicate Serves<T>(all: seq<T>, size: nat, page: Option<string>, p: Page<T>)
    requires size > 0
  {
    && RequestedPage(page, PageCount(|all|, size)) == Some(p.currentPage)
    && p.lastPage == PageCount(|all|, size)
    && 1 <= p.currentPage && (p.currentPage - 1) * size <= |all|
    && p.items == PageItems(all, size, p.currentPage)
  }

  /** Every page `Paginate` serves is the page requested. */
  lemma PaginateServes<T>(all: seq<T>, size: nat, page: Option<string>)
    requires size > 0 && Paginate(all, size, page).Ok?
    ensures Serves(all, size, page, Paginate(all, size, page).value)
  {
    var n := RequestedPage(page, PageCount(|all|, size)).value;
    PageServed(all, size, page, n);
  }

  /** A page number sent as its numeral is read back as that number. */
  lemma RequestedNumeral(n: int, last: nat)
    requires n >= 1
    ensures RequestedPage(Some(IntToDecimal(n)), last) == Some(n)
  {
    ParseIntToDecimal(n);
    assert IntToDecimal(n) != "last" by {
      assert IsDigit(IntToDecimal(n)[0]);
    }
  }

  /** Position `j` of page `n` is position `(n - 1) * size + j` of the list. */
  lemma PageItemAt<T>(all: seq<T>, size: nat, n: int, j: nat)
    requires size > 0 && 1 <= n && j < size && (n - 1) * size + j < |all|
    ensures j < |PageItems(all, size, n)| && PageItems(all, size, n)[j] == all[(n - 1) * size + j]
  {
  }

  lemma DivisionBound(i: nat, size: nat, total: nat, last: nat)
    requires size > 0 && i < total && last == PageCount(total, size)
    ensures i / size + 1 <= last
    ensures (i / size) * size + i % size == i
  {
    var q := i / size;
    assert q * size + i % size == i;
    PageCountFits(total, size);
    if q + 1 > last {
      MulMonotone(last, q, size);
    }
  }
}

=== FILE: product_admin.dfy ===
/** `ProductAdmin.description_short` in shopapp/admin.py: the admin's shortened description. */
module ProductAdmin {
  import opened Results
  import opened Catalog

  /** Descriptions shorter than this are shown whole. */
  const ShortLength: nat := 48

  /** What a shortened description ends with. */
  const Ellipsis: string := "..."

  /**
   A description of fewer than 48 characters is kept; a longer one (48 included)
   becomes its first 48 characters and "...", 51 characters in all.
   */
  function Shorten(description: string): (r: string)
    ensures |r| <= ShortLength + |Ellipsis|
    ensures |description| < ShortLength ==> r == description
    ensures |description| >= ShortLength ==> |r| == 51 && r[ShortLength..] == Ellipsis
    ensures var keep := if |description| < ShortLength then |description| else ShortLength;
            |r| >= keep && r[..keep] == description[..keep]
  {
    if |description| < ShortLength then description else description[..ShortLength] + Ellipsis
  }

  /** Shortening what is already short, or already shortened, changes nothing. */
  lemma ShortenIdempotent(description: string)
    ensures Shorten(Shorten(description)) == Shorten(description)
  {
    if |description| >= ShortLength {
      var once := Shorten(description);
      assert once[..ShortLength] == description[..ShortLength];
    }
  }

  /**
   The admin method on a product: `None` stands for the `TypeError` that
   `len(None)` raises when the product has no description. The text shown
   is the description shortened as `Shorten`'s contract states.
   */
  function DescriptionShort(p: Product): (r: Option<string>)
    ensures r.Some? <==> p.description.Some?
    ensures r.Some? ==> |r.value| <= 51
    ensures r.Some? ==> r.value == Shorten(p.description.value)
  {
    match p.description
    case None => None
    case Some(text) => Some(Shorten(text))
  }
}

=== FILE: results.dfy ===
/** Failure-carrying values shared by every module of the shop model. */
module Results {

  /** A value that may be absent: Python's `None` or a missing key. */
  datatype Option<+T> = None | Some(value: T)

  /** The outcome of an operation that the source can abandon with an error. */
  datatype Result<+T, +E> = Ok(value: T) | Err(error: E)
}
